=== FILE: README.md ===
# Load-Balancer core in Dafny

This project models the deterministic core of a small TCP load balancer
written in Go, and proves properties about it:

- **Round-robin selection** (`RoundRobinPolicy`). Each call bumps a `uint32`
  counter by one, wrapping at 2^32. The pick is the counter's value before
  the call, reduced with Go's truncating `%`.
- **Numbered backend server** (`Backend`). It binds its own listener when it
  is created. It answers each connection's first line with
  `"Server <id> ACK: " + ToUpper(TrimSpace(line)) + "\n"`, and sends nothing
  when the stream ends before a newline. Its `Close` and `Addr` are nil-safe.
- **Legacy backend server** (`LegacyBackend`). It follows the same line rule
  with the bare `"ACK: "` prefix. Its listener is created lazily by
  `ListenAndServe`.
- **Load balancer** (`Balancer`), covering three steps:
  - Bootstrap: the server-count range check, then up to three start
    attempts per ordinal with a delay after every failure. Ordinals that
    never start are skipped. An empty pool is an error.
  - Dispatch: the inline `next % len(backend)` index.
  - Shutdown: close every backend whatever each reports, then the own
    listener, and return only the listener's result.

Shared pieces:

- `Text`: Go's `unicode.IsSpace`, `strings.TrimSpace`, `ToUpper` and `%d`
  rendering.
- `LineProtocol`: `ReadString('\n')` framing and the acknowledgement rule.
- `Net`: listeners, accept outcomes and the accept loop that all three
  servers run.
- `Common`: `Option`, `Result`, error kinds and Go's `%`.

The balancer is modelled as its source defines it. `NewLoadBalancer` takes
only a server count and keeps its own `next` counter. Callers that pass a
selection algorithm, and an `Algorithm` interface, are not part of this
model. `DispatchAllFollowsRoundRobin` proves that the inline counter picks
exactly what `RoundRobin.Next` picks.

Sockets, timing and concurrency are replaced by inputs:

- `listen`/`bind`: the address `net.Listen` returned, or `None` when it failed.
- `start(ordinal, attempt)`: the outcome of each backend start.
- `Client.dialOk`: whether `net.Dial` to the chosen backend succeeded.
- `Accepted` values: what successive `Accept` calls returned.
- Close outcomes: what each listener's `Close` reported.

The bootstrap records its observable steps as a trace of `Event`s: opening
the listener, each start attempt, each delay, and each accept-loop launch.

## Model

| member | source | states |
|---|---|---|
| Common.GoRem | internal/algorithm/roundrobin.go:13 | Go's `%` truncates: a non-negative dividend gives a value in [0, \|b\|), a negative one a value in (-\|b\|, 0], and the dividend minus the result is a multiple of b, which fixes the value |
| Text.TrimSpace | internal/backendserver/backendserver.go:58 | the result is a slice of the input with only space characters cut on either side, has no space at either end, and is empty exactly when the input is all spaces |
| Text.TrimSpaceIsCanonical | internal/backendserver/backendserver.go:58 | any slice with space-only margins and no edge space is exactly what TrimSpace returns |
| Text.Upper | internal/backendserver/backendserver.go:58 | same length as the input, each character upper-cased |
| Text.Normalize | internal/backendserver/backendserver.go:58 | `ToUpper(TrimSpace(line))`: the upper-casing of a slice of the line cut out between space-only margins, with no space at either end, and empty exactly when the line is all spaces |
| Text.NormalizeIdempotent | internal/backendserver/backendserver.go:58 | the upper-cased trimmed payload has no edge space, and normalising it again changes nothing |
| Text.FormatInt | internal/backendserver/backendserver.go:59 | `%d`: decimal digits with a leading minus sign exactly for a negative number, and no leading zero except for 0 itself |
| Text.ParseFormatInt | internal/backendserver/backendserver.go:59 | the `%d` rendering of any int is parsed back to the same int |
| LineProtocol.ReadLine | internal/backendserver/backendserver.go:51-52 | no line exactly when the stream holds no newline; otherwise a prefix of the stream whose one newline is its last character |
| LineProtocol.ReadLineIsUniqueLinePrefix | internal/backendserver/backendserver.go:52 | any prefix of the stream that is a complete line is the line read |
| LineProtocol.ReadLineIgnoresTrailing | internal/backendserver/backendserver.go:52 | bytes after the first newline do not change the line read |
| LineProtocol.ReadLineChunked | internal/backendserver/backendserver.go:51-52 | buffered reading, one network read at a time, yields the line of the whole stream however the writes were split |
| LineProtocol.Ack | internal/backendserver/backendserver.go:52-59 | no reply exactly when no newline arrives; otherwise the reply starts with the prefix and ends in a newline |
| LineProtocol.AckSingleNewline | internal/backendserver/backendserver.go:52-59 | with a newline-free prefix the reply has exactly one newline, as its last character |
| LineProtocol.AckPayloadCanonical | internal/backendserver/backendserver.go:58 | the payload between prefix and newline is the normalised line, free of edge space and a fixed point of normalisation |
| LineProtocol.AckIgnoresTrailing | internal/backendserver/backendserver.go:52 | what follows the first newline does not change the reply |
| Net.AcceptLoop | internal/backendserver/backendserver.go:31-44 | every accepted connection before the first accept error is handled in order; the loop stops at that error, gracefully exactly when it reports a closed listener |
| Net.AcceptLoopStopsAtFirstError | internal/backendserver/backendserver.go:32-43 | outcomes after the first accept error are never looked at |
| Net.AcceptLoopConnsThenError | internal/loadbalancer/loadbalancer.go:81-94 | connections followed by an error: exactly those connections are handled, and the stop kind follows the error |
| Net.CloseListener | internal/loadbalancer/loadbalancer.go:130 | `listener.Close()`: the listener is closed afterwards, keeps its address, and the call returns what the operating system reported |
| RoundRobinPolicy.Next | internal/algorithm/roundrobin.go:11-14 | the index lies in [0, \|n\|) and equals the counter before the call mod \|n\|; the counter advances by one mod 2^32 |
| RoundRobinPolicy.IncrementThenDecrement | internal/algorithm/roundrobin.go:12 | adding one and then subtracting one in uint32 gives back the counter, across the 2^32 wrap too |
| RoundRobinPolicy.ZeroValueStartsAtZero | internal/algorithm/roundrobin.go:7-14 | a zero-valued RoundRobin picks 0 first and leaves the counter at 1 |
| RoundRobinPolicy.Calls | internal/algorithm/roundrobin.go:11-14 | k calls from counter c: the m-th picks ((c + m) mod 2^32) mod \|n\|, and the counter ends at (c + k) mod 2^32 |
| RoundRobinPolicy.CycleVisitsEveryIndexOnce | internal/algorithm/roundrobin.go:11-14 | n calls that do not cross the wrap return c mod n, (c+1) mod n, ..., each step one more mod n, and hit every index in [0, n) exactly once |
| Backend.NewBackendServer | internal/backendserver/backendserver.go:18-29 | success exactly when the bind succeeded, keeping the number and the bound open listener; otherwise the bind error |
| Backend.ReplyRoundTrip | internal/backendserver/backendserver.go:59 | a reply line is parsed back into the server number and payload it was built from, for any payload |
| Backend.HandleConnection | internal/backendserver/backendserver.go:46-64 | no reply exactly when no newline arrives; otherwise the reply reads back as this server's number and the normalised first line |
| Backend.ReplyOfLine | internal/backendserver/backendserver.go:52-59 | the reply to a stream with a newline is "Server " + decimal id + " ACK: " + upper(trim(line)) + newline |
| Backend.ReplyIsOneLine | internal/backendserver/backendserver.go:52-59 | every reply holds exactly one newline, as its last character |
| Backend.ReplyIgnoresTrailing | internal/backendserver/backendserver.go:52 | bytes after the first newline leave the reply unchanged |
| Backend.HandleFragmented | internal/backendserver/backendserver.go:51-59 | fragmented writes get the reply of the whole stream |
| Backend.AcceptConnections | internal/backendserver/backendserver.go:31-44 | each connection taken before the first accept error gets its reply, in order, each signed with this server's number; the stop kind is the accept loop's |
| Backend.Close | internal/backendserver/backendserver.go:66-71 | nil listener: nothing changes and no error; otherwise the listener is closed at the same address, the server keeps its number, and the listener's error is returned |
| Backend.Addr | internal/backendserver/backendserver.go:73-78 | nil exactly when there is no listener, otherwise the listener's address |
| Backend.ReplyCarriesServerNumber | internal/backendserver/backendserver.go:18-29 | a server built with number num signs every reply with num |
| Backend.PlainLineNormalized | internal/backendserver/backendserver.go:52-58 | a newline-free text without edge spaces, followed by a newline, is read whole and its payload is the upper-cased text |
| Backend.HelloExample | internal/backendserver/backendserver_test.go:51-58 | "Hello\n" to server 1 is answered "Server 1 ACK: HELLO\n" |
| Backend.FragmentedExample | internal/backendserver/backendserver.go:51-59 | the writes "H", "ello ", "World", "\n" get "Server 1 ACK: HELLO WORLD\n" |
| LegacyBackend.NewBackendServer | internal/backend_server/backendserver.go:18-23 | records the number and leaves the listener nil |
| LegacyBackend.HandleConnection | internal/backend_server/backendserver.go:47-65 | no reply exactly when no newline arrives; otherwise the reply starts with "ACK: " |
| LegacyBackend.ListenAndServe | internal/backend_server/backendserver.go:25-45 | a failed bind returns at once with no listener and no accept loop; otherwise the listener is set and each connection before the first accept error is answered in order |
| LegacyBackend.Close | internal/backend_server/backendserver.go:67-72 | nil listener: no error and nothing changes; otherwise the listener is closed at the same address, the server keeps its number, and the listener's error is returned |
| LegacyBackend.CloseBeforeListen | internal/backend_server/backendserver.go:18-23 | closing a server that never listened returns no error |
| LegacyBackend.CloseAfterFailedListen | internal/backend_server/backendserver.go:26-31 | after a failed bind, Close still returns no error |
| LegacyBackend.NumberedReplyExtendsLegacy | internal/backend_server/backendserver.go:59-60 | the numbered reply is "Server <id> " followed by the legacy reply to the same stream, and both are absent together |
| LegacyBackend.HelloExample | internal/backend_server/backendserver_test.go:35-50 | "Hello\n" is answered "ACK: HELLO\n" |
| Balancer.FirstSuccess | internal/loadbalancer/loadbalancer.go:39-43 | the reference for the retry loop: the first attempt from `from` on that succeeds, none exactly when every remaining attempt fails |
| Balancer.StartWithRetry | internal/loadbalancer/loadbalancer.go:39-52 | a server exactly when some remaining attempt succeeds, built from the first such attempt, after one attempt-and-delay pair per earlier failure; the trace alternates attempts and delays, with a delay after every failure including the third |
| Balancer.StartFrom | internal/loadbalancer/loadbalancer.go:35-67 | the loop over ordinals i..n-1 keeps at most one server per ordinal, so the pool never outgrows the count; the rest of its contract is Balancer.StartFromBuildsPool |
| Balancer.StartFromBuildsPool | internal/loadbalancer/loadbalancer.go:35-67 | the loop over ordinals builds exactly the ordinals that started within three attempts, in increasing order, each from its first success; an accept loop is launched for exactly those; only these ordinals are tried; each ordinal's attempts are numbered within 1..3 and strictly increase, so there are at most three, and no attempt follows a successful one; every ordinal is tried again until its first success or third failure, and each attempt records its real outcome; a delay follows every failed attempt |
| Balancer.EmptyPoolIffNoneStarted | internal/loadbalancer/loadbalancer.go:69-71 | the pool is empty exactly when no ordinal started |
| Balancer.NewLoadBalancer | internal/loadbalancer/loadbalancer.go:20-79 | a count of 0 or above 1000 fails before anything is opened; the own listener opens first and once; a failed listen is returned; the empty-pool error exactly when nothing started; success exactly when the count is in range, the listen worked and some ordinal started; on success a non-empty pool of exactly the ordinals that started, in order, each from its first success, the listener it opened, and a counter at 0; after a successful listen, the trace past the listen carries every promise of the ordinal loop (Balancer.StartFromBuildsPool): each ordinal retried until its first success or third failure with real outcomes, a delay after every failure, and an accept loop launched for exactly the pooled backends |
| Balancer.NegativeCountExhaustsPool | internal/loadbalancer/loadbalancer.go:23-71 | a negative count passes the range check, starts nothing and ends in the empty-pool error |
| Balancer.PipeConnection | internal/loadbalancer/loadbalancer.go:96-118 | the index is in the pool; the counter advances by one even when the dial fails; a relayed client receives the chosen backend's reply to its stream |
| Balancer.PipeConnectionIsRoundRobin | internal/loadbalancer/loadbalancer.go:97-99 | the inline index and counter equal what RoundRobin.Next gives |
| Balancer.DispatchAll | internal/loadbalancer/loadbalancer.go:96-118 | the k-th client goes to position ((next + k) mod 2^32) mod len, dial failures included; each is relayed exactly when its dial succeeds, and then receives that backend's reply; the counter ends advanced by the number of clients |
| Balancer.DispatchAllFollowsRoundRobin | internal/loadbalancer/loadbalancer.go:97-99 | a run of dispatches picks exactly the positions of the same number of RoundRobin.Next calls, in order, and leaves the same counter |
| Balancer.AcceptConnections | internal/loadbalancer/loadbalancer.go:81-94 | one dispatch per connection accepted before the first accept error, whether or not the loop has stopped yet: the k-th accepted client goes to position ((next + k) mod 2^32) mod len, is relayed exactly when its dial succeeds and then receives that backend's reply, and the counter advances by the number of accepted clients; the stop kind is the accept loop's |
| Balancer.AcceptConnectionsStopsAtFirstError | internal/loadbalancer/loadbalancer.go:81-94 | clients offered after the first accept error are neither dispatched nor counted; the accepted ones are dispatched as a plain run of dispatches |
| Balancer.Addr | internal/loadbalancer/loadbalancer.go:133-139 | the address of the balancer's own listener; Balancer.AddrIsBoundListener proves it is the address the listen bound |
| Balancer.AddrIsBoundListener | internal/loadbalancer/loadbalancer.go:133-139 | a built balancer reports the address its listener was bound to, and dispatching does not change it |
| Balancer.AllStartFromFillsPool | internal/loadbalancer/loadbalancer.go:35-59 | when every ordinal starts at once, the pool holds ordinals i..n-1 in order |
| Balancer.AllStartBuildsOrderedPool | internal/loadbalancer/loadbalancer.go:20-77 | when every backend starts at once, the balancer holds backends 0..n-1 in order with the counter at 0 |
| Balancer.FirstLapInOrder | internal/loadbalancer/loadbalancer.go:97-99 | from a fresh counter, the k-th of at most len clients goes to position k |
| Balancer.OrderedPoolServesInOrder | internal/loadbalancer/loadbalancer.go:96-118 | from a fresh counter, the k-th of at most len dialled clients is relayed backend k's reply |
| Balancer.OrderedPoolGreetsInOrder | internal/loadbalancer/loadbalancer_test.go:61-73 | with a pool numbered 0, 1, ... and a fresh counter, the k-th "HELLO\n" is answered "Server k ACK: HELLO\n" |
| Balancer.ClosePool | internal/loadbalancer/loadbalancer.go:122-128 | every backend is closed in pool order, whatever the earlier ones reported, and each failure is recorded |
| Balancer.Close | internal/loadbalancer/loadbalancer.go:121-131 | the own listener is closed last and only its result is returned; every backend is visited first, in order; every backend with a listener ends closed at the same address with the same number, and one without a listener is left as it was; the counter is unchanged |
| Balancer.CloseIgnoresBackendErrors | internal/loadbalancer/loadbalancer.go:122-130 | backend close failures change neither the closed state nor the returned error |
| Balancer.BootstrappedBackendsListen | internal/loadbalancer/loadbalancer.go:39-59 | every backend in a freshly built pool holds an open listener |
| Balancer.CloseListeningPool | internal/loadbalancer/loadbalancer.go:121-131 | when every backend has a listener, Close leaves all of them closed and keeps the pool's numbering |
| Balancer.CloseAfterBootstrapClosesAll | internal/loadbalancer/loadbalancer.go:121-131 | closing a just-built balancer closes every backend and the own listener, and returns the listener's result |

## Left out

- Sockets are not modelled. `net.Listen`, `Accept`, `Dial` and `Close` become input values. The two `io.Copy` relay goroutines are reduced to one effect: the client receives the backend's reply to the client's stream.
- Concurrency is not modelled: goroutines, atomics, and the load-then-add race in `pipeConnections`. Dispatches are sequential, so two concurrent clients picking the same backend is not represented.
- `time.Sleep` durations and all `slog` logging are left out. Only the place of each delay in the trace is kept.
- `internal/algorithm/leastconnections.go` (`Random`) is not modelled. It only wraps `math/rand`, and the balancer never calls it.
- `cmd/lb/main.go` is not part of this model. It is flag parsing and signal wiring, and it calls a two-argument `NewLoadBalancer` that the balancer does not define.
- Error messages are reduced to the error kinds in `Common.Error`.
- Strings are sequences of Unicode code points. UTF-8 decoding and invalid byte sequences are not modelled.
- Text.UpperChar: upper-cases ASCII letters only. Go's `strings.ToUpper` also maps non-ASCII letters.
- Text.Upper: built on Text.UpperChar, so only ASCII letters are upper-cased.
- Text.Normalize: inherits the ASCII-only upper-casing of Text.UpperChar.
- RoundRobinPolicy.Next: requires a non-zero pool size. In Go a zero size panics on division by zero. A negative size is allowed and modelled with Go's remainder.
- RoundRobinPolicy.Next: assumes Go's `int` is 64 bits wide, so `int(index)` of a `uint32` is never negative. With a 32-bit `int`, a counter at or above 2^31 converts to a negative number and the pick would be negative.
- Balancer.PipeConnection: models the reply as delivered to the client. In the source, whichever `io.Copy` returns first closes both connections. A client that half-closes its side after its line ends the client-to-backend copy at once, usually before the reply arrives, and then gets nothing. The model holds only for a client that keeps its side open until the reply arrives.
- Balancer.DispatchAll: inherits that delivery assumption from Balancer.PipeConnection.
- Balancer.AcceptConnections: inherits that delivery assumption from Balancer.PipeConnection.
- Balancer.PipeConnection: assumes the same 64-bit `int`. With a 32-bit `int`, a counter at or above 2^31 gives a negative slice index, and `pipeConnections` would panic.
- The legacy server's fixed port `:8080` is an input bind result. The legacy server's own broken test file is used only for its expected reply text.
- Balancer.NewLoadBalancer: does not model that the balancer listener stays open after the empty-pool error.
- Closing an already closed listener, which the operating system reports as an error, is not modelled.
- The balancer's `Addr` nil branch is not modelled. A built balancer always holds its listener.
- The panic in `pipeConnections` when a backend has no listener is not modelled. Every pool entry holds one (Balancer.BootstrappedBackendsListen).
- Balancer.OrderedPoolGreetsInOrder: states the ten-server round-robin test for any pool size, not for the literal 10.

=== FILE: backend.dfy ===
/** The numbered backend server (internal/backendserver): it binds its own
    listener when created, answers each connection with
    "Server <id> ACK: <LINE>\n", and closes nil-safely. */
module Backend {
  import opened Common
  import opened Text
  import opened LineProtocol
  import opened Net

  datatype BackendServer = BackendServer(serverNumber: int, listener: Option<Listener>)

  /** `NewBackendServer(num)`: `bind` is what `net.Listen("tcp", ":0")`
      gave, the OS-assigned address or nothing when binding failed. */
  function NewBackendServer(num: int, bind: Option<nat>): (r: Result<BackendServer>)
    ensures r.Ok? <==> bind.Some?
    ensures r.Ok? ==> r.value.serverNumber == num && r.value.listener == Some(Listener(bind.value, true))
    ensures r.Err? ==> r.error == BindError
  {
    match bind
    case None => Err(BindError)
    case Some(addr) => Ok(BackendServer(num, Some(Listener(addr, true))))
  }

  const ServerTag: string := "Server "
  const AckTag: string := " ACK: "

  /** Everything the reply puts before the payload for server `id`. */
  function ReplyPrefix(id: int): string {
    ServerTag + FormatInt(id) + AckTag
  }

  /** The two fields a client can read off a reply. */
  datatype Reply = Reply(id: int, payload: string)

  /** Position of the first `c` in `s`, if any. */
  function IndexOf(s: string, c: char): (r: Option<nat>)
    ensures r.None? <==> c !in s
    ensures r.Some? ==> r.value < |s| && s[r.value] == c && c !in s[..r.value]
    decreases |s|
  {
    if |s| == 0 then None
    else if s[0] == c then Some(0)
    else match IndexOf(s[1..], c)
      case None => None
      case Some(k) =>
        assert s[..k + 1] == [s[0]] + s[1..][..k];
        Some(k + 1)
  }

  /** A client's reading of a reply line: the server number up to the first
      blank after "Server ", then " ACK: ", the payload and the newline. */
  function ParseReply(r: string): Option<Reply> {
    if |r| < |ServerTag| || r[..|ServerTag|] != ServerTag then None
    else
      var rest := r[|ServerTag|..];
      match IndexOf(rest, ' ')
      case None => None
      case Some(k) =>
        match ParseInt(rest[..k])
        case None => None
        case Some(id) =>
          var tail := rest[k..];
          if |tail| > |AckTag| && tail[..|AckTag|] == AckTag && tail[|tail| - 1] == Newline
          then Some(Reply(id, tail[|AckTag|..|tail| - 1]))
          else None
  }

  lemma IndexOfFirst(s: string, c: char, k: nat)
    requires k < |s| && s[k] == c && c !in s[..k]
    ensures IndexOf(s, c) == Some(k)
  {
  }

  /** What follows the number in a reply is read back as its payload. */
  lemma TailRoundTrip(tail: string, payload: string)
    requires tail == AckTag + payload + [Newline]
    ensures |tail| > |AckTag| && tail[..|AckTag|] == AckTag && tail[|tail| - 1] == Newline
    ensures tail[|AckTag|..|tail| - 1] == payload
  {
  }

  /** Every reply line can be read back into the number and payload it was
      built from, whatever the payload holds. */
  lemma ReplyRoundTrip(id: int, payload: string)
    ensures ParseReply(ReplyPrefix(id) + payload + [Newline]) == Some(Reply(id, payload))
  {
    var f := FormatInt(id);
    var tail := AckTag + payload + [Newline];
    var rest := f + tail;
    var r := ReplyPrefix(id) + payload + [Newline];
    assert r == ServerTag + rest;
    assert r[..|ServerTag|] == ServerTag;
    assert r[|ServerTag|..] == rest;
    assert ' ' !in f;
    assert rest[..|f|] == f;
    IndexOfFirst(rest, ' ', |f|);
    ParseFormatInt(id);
    assert rest[|f|..] == tail;
    TailRoundTrip(tail, payload);
  }

  /** `handleConnection`: one line in, one acknowledgement out, tagged with
      the server's number; no reply when the stream ends before a newline. */
  function HandleConnection(b: BackendServer, stream: string): (r: Option<string>)
    ensures r.None? <==> Newline !in stream
    ensures r.Some? ==>
      ParseReply(r.value) == Some(Reply(b.serverNumber, Normalize(ReadLine(stream).value)))
  {
    var r := Ack(ReplyPrefix(b.serverNumber), stream);
    if r.Some? then ReplyRoundTrip(b.serverNumber, Normalize(ReadLine(stream).value)); r else r
  }

  /** `handleConnection` fed by a client that fragments its writes: the reply
      is the one for the whole stream. */
  method HandleFragmented(b: BackendServer, chunks: seq<string>) returns (r: Option<string>)
    ensures r == HandleConnection(b, Concat(chunks))
  {
    var line := ReadLineChunked(chunks);
    match line {
      case None => r := None;
      case Some(l) => r := Some(ReplyPrefix(b.serverNumber) + Normalize(l) + [Newline]);
    }
  }

  /** Replies to every connection the accept loop took, and why it stopped. */
  datatype Session = Session(replies: seq<Option<string>>, stop: Stop)

  /** `AcceptConnections`: serve each accepted connection until the first
      accept error. */
  function AcceptConnections(b: BackendServer, events: seq<Accepted<string>>): (r: Session)
    requires b.listener.Some?
    ensures r.stop == AcceptLoop(events).stop
    ensures |r.replies| == |AcceptLoop(events).handled| <= |events|
    ensures forall k :: 0 <= k < |r.replies| ==>
      events[k].Conn? && r.replies[k] == HandleConnection(b, events[k].conn)
    ensures forall k :: 0 <= k < |r.replies| && r.replies[k].Some? ==>
      ParseReply(r.replies[k].value).Some? && ParseReply(r.replies[k].value).value.id == b.serverNumber
  {
    var served := AcceptLoop(events);
    Session(seq(|served.handled|, k requires 0 <= k < |served.handled| => HandleConnection(b, served.handled[k])),
            served.stop)
  }

  datatype ServerClosed = ServerClosed(server: BackendServer, err: Option<Error>)

  /** `Close`: nil-safe; otherwise close the listener and pass on its result. */
  function Close(b: BackendServer, outcome: Option<Error>): (r: ServerClosed)
    ensures b.listener.None? ==> r == ServerClosed(b, None)
    ensures b.listener.Some? ==>
      && r.err == outcome
      && r.server.serverNumber == b.serverNumber
      && r.server.listener.Some? && !r.server.listener.value.open
      && r.server.listener.value.addr == b.listener.value.addr
  {
    match b.listener
    case None => ServerClosed(b, None)
    case Some(l) =>
      var c := CloseListener(l, outcome);
      ServerClosed(b.(listener := Some(c.listener)), c.err)
  }

  /** `Addr`: nil-safe; otherwise the listener's address. */
  function Addr(b: BackendServer): (r: Option<nat>)
    ensures r.None? <==> b.listener.None?
    ensures r.Some? ==> r.value == b.listener.value.addr
  {
    match b.listener
    case None => None
    case Some(l) => Some(l.addr)
  }

  /** A server built by NewBackendServer signs every reply with the number
      it was given. */
  lemma ReplyCarriesServerNumber(num: int, addr: nat, stream: string)
    requires Newline in stream
    ensures var r := HandleConnection(NewBackendServer(num, Some(addr)).value, stream);
      r.Some? && ParseReply(r.value).Some? && ParseReply(r.value).value.id == num
  {
  }

  /** Every reply is a single line: its only newline is the last character. */
  lemma ReplyIsOneLine(b: BackendServer, stream: string)
    requires Newline in stream
    ensures var r := HandleConnection(b, stream).value;
      |r| > 0 && r[|r| - 1] == Newline && Newline !in r[..|r| - 1]
  {
    var f := FormatInt(b.serverNumber);
    assert Newline !in f by {
      forall k | 0 <= k < |f| ensures f[k] != Newline { }
    }
    AckSingleNewline(ReplyPrefix(b.serverNumber), stream);
  }

  /** Whatever the client sends after its first newline leaves the reply unchanged. */
  lemma ReplyIgnoresTrailing(b: BackendServer, s: string, t: string)
    requires Newline in s
    ensures HandleConnection(b, s + t) == HandleConnection(b, s)
  {
    AckIgnoresTrailing(ReplyPrefix(b.serverNumber), s, t);
  }

  lemma ReplyOfLine(b: BackendServer, stream: string)
    requires Newline in stream
    ensures HandleConnection(b, stream)
         == Some(ReplyPrefix(b.serverNumber) + Normalize(ReadLine(stream).value) + [Newline])
  {
  }

  /** A line whose text has no edge spaces: it is read whole, and its
      payload is the upper-cased text. */
  lemma PlainLineNormalized(w: string, s: string)
    requires Newline !in w && NoEdgeSpace(w) && s == w + [Newline]
    ensures ReadLine(s) == Some(s)
    ensures Normalize(s) == Upper(w)
  {
    assert s[..|w|] == w;
    ReadLineIsUniqueLinePrefix(s, s);
    assert s[..0] == [] && s[|w|..] == [Newline] && s[0..|w|] == w;
    TrimSpaceIsCanonical(s, 0, |w|);
  }

  lemma HelloNormalized(s: string)
    requires s == "Hello\n"
    ensures ReadLine(s) == Some(s)
    ensures Normalize(s) == "HELLO"
  {
    HelloParts(s);
    PlainLineNormalized("Hello", s);
  }

  lemma HelloParts(s: string)
    requires s == "Hello\n"
    ensures Newline !in "Hello" && NoEdgeSpace("Hello") && s == "Hello" + [Newline]
    ensures Upper("Hello") == "HELLO"
  {
  }

  lemma HelloWorldNormalized(s: string)
    requires s == "Hello World\n"
    ensures ReadLine(s) == Some(s)
    ensures Normalize(s) == "HELLO WORLD"
  {
    HelloWorldParts(s);
    PlainLineNormalized("Hello World", s);
  }

  lemma HelloWorldParts(s: string)
    requires s == "Hello World\n"
    ensures Newline !in "Hello World" && NoEdgeSpace("Hello World") && s == "Hello World" + [Newline]
    ensures Upper("Hello World") == "HELLO WORLD"
  {
  }

  lemma HelloText()
    ensures "Server 1 ACK: " + "HELLO" + [Newline] == "Server 1 ACK: HELLO\n"
  {
  }

  lemma ServerOnePrefix()
    ensures ReplyPrefix(1) == "Server 1 ACK: "
  {
    assert FormatInt(1) == "1";
  }

  /** "Hello\n" to server 1 is answered with "Server 1 ACK: HELLO\n". */
  lemma HelloExample(b: BackendServer, hello: string)
    requires b.serverNumber == 1 && hello == "Hello\n"
    ensures HandleConnection(b, hello) == Some("Server 1 ACK: HELLO\n")
  {
    ReplyOfLine(b, hello);
    HelloNormalized(hello);
    ServerOnePrefix();
    HelloText();
  }

  lemma HelloWorldText()
    ensures "Server 1 ACK: " + "HELLO WORLD" + [Newline] == "Server 1 ACK: HELLO WORLD\n"
  {
  }

  /** The fragmented writes "H", "ello ", "World", "\n" get the single
      acknowledgement of the whole line. */
  lemma FragmentedExample(b: BackendServer, chunks: seq<string>)
    requires b.serverNumber == 1 && chunks == ["H", "ello ", "World", "\n"]
    ensures HandleConnection(b, Concat(chunks)) == Some("Server 1 ACK: HELLO WORLD\n")
  {
    var s := Concat(chunks);
    assert s == "Hello World\n" by {
      ConcatStep(chunks, 0);
      ConcatStep(chunks, 1);
      ConcatStep(chunks, 2);
      ConcatStep(chunks, 3);
      assert chunks[..4] == chunks;
    }
    ReplyOfLine(b, s);
    HelloWorldNormalized(s);
    ServerOnePrefix();
    HelloWorldText();
  }
}

=== FILE: balancer.dfy ===
/** The load balancer (internal/loadbalancer): pool bootstrap with bounded
    retry, the inline round-robin dispatch index, and shutdown. Socket
    operations appear as oracles: `listen` for the balancer's own socket,
    `start(ordinal, attempt)` for each backend bind, a dial flag per client,
    and the results of closing each listener. */
module Balancer {
  import opened Common
  import opened Net
  import opened Text
  import opened LineProtocol
  import opened RoundRobinPolicy
  import Backend

  const MaxServers: int := 1000
  const MaxAttempts: int := 3

  /** `start(i, a)`: the address bound by `net.Listen` when backend `i` is
      started on attempt `a`, or nothing when that attempt fails. */
  type StartOracle = (int, int) -> Option<nat>

  /** The observable steps of the bootstrap, in order. */
  datatype Event =
    | OpenListener                                  // net.Listen for the balancer itself
    | StartAttempt(ordinal: int, attempt: int, ok: bool)
    | Delay                                         // time.Sleep(time.Second)
    | LaunchAcceptLoop(ordinal: int)                // go s.AcceptConnections()

  predicate FailedAttempt(e: Event) {
    e.StartAttempt? && !e.ok
  }

  /** Every failed attempt is followed at once by a delay, and every delay
      comes right after a failed attempt. */
  predicate DelayAfterEachFailure(t: seq<Event>) {
    && (forall k :: 0 <= k < |t| && FailedAttempt(t[k]) ==> k + 1 < |t| && t[k + 1].Delay?)
    && (forall k :: 0 <= k < |t| && t[k].Delay? ==> k > 0 && FailedAttempt(t[k - 1]))
  }

  /** A trace that can be followed by another without breaking the pairing. */
  predicate Joinable(t: seq<Event>) {
    |t| == 0 || !FailedAttempt(t[|t| - 1])
  }

  predicate StartsWithoutDelay(t: seq<Event>) {
    |t| == 0 || !t[0].Delay?
  }

  lemma JoinTraces(a: seq<Event>, b: seq<Event>)
    requires DelayAfterEachFailure(a) && DelayAfterEachFailure(b)
    requires Joinable(a) && StartsWithoutDelay(b)
    ensures DelayAfterEachFailure(a + b)
    ensures Joinable(b) ==> Joinable(a + b)
    ensures StartsWithoutDelay(a) ==> StartsWithoutDelay(a + b)
  {
    var t := a + b;
    forall k | 0 <= k < |t| && FailedAttempt(t[k]) ensures k + 1 < |t| && t[k + 1].Delay? {
      if k < |a| { assert t[k] == a[k]; } else { assert t[k] == b[k - |a|]; }
    }
    forall k | 0 <= k < |t| && t[k].Delay? ensures k > 0 && FailedAttempt(t[k - 1]) {
      if k < |a| { assert t[k] == a[k]; } else { assert t[k] == b[k - |a|]; }
    }
  }

  /** Attempt `a` is the first successful one from attempt `from` on. */
  predicate FirstOk(i: int, start: StartOracle, from: int, a: int) {
    && from <= a <= MaxAttempts
    && start(i, a).Some?
    && forall b :: from <= b < a ==> start(i, b).None?
  }

  /** Backend `i` comes up within its three attempts. */
  ghost predicate StartsWithinRetries(i: int, start: StartOracle) {
    exists a :: 1 <= a <= MaxAttempts && start(i, a).Some?
  }

  /** The k-th step of a retry sequence begun at attempt `from`: attempts at
      even positions, numbered consecutively, a delay at every odd one. */
  function RetryEvent(i: int, start: StartOracle, from: int, k: nat): Event {
    if k % 2 == 1 then Delay
    else StartAttempt(i, from + k / 2, start(i, from + k / 2).Some?)
  }

  lemma RetryEventShift(i: int, start: StartOracle, from: int, k: nat)
    requires k >= 2
    ensures RetryEvent(i, start, from, k) == RetryEvent(i, start, from + 1, k - 2)
  {
    assert (k - 2) % 2 == k % 2 && (k - 2) / 2 == k / 2 - 1;
  }

  /** A failed attempt and its delay, followed by the trace of the later
      attempts, is the trace begun one attempt earlier. */
  lemma RetryTraceCons(i: int, start: StartOracle, attempt: int, tail: seq<Event>)
    requires start(i, attempt).None? && RetryTrace(tail, i, start, attempt + 1)
    ensures RetryTrace([StartAttempt(i, attempt, false), Delay] + tail, i, start, attempt)
  {
    var events := [StartAttempt(i, attempt, false), Delay] + tail;
    forall k | 0 <= k < |events| ensures events[k] == RetryEvent(i, start, attempt, k) {
      if k >= 2 {
        RetryEventShift(i, start, attempt, k);
        assert events[k] == tail[k - 2];
      }
    }
  }

  datatype Started = Started(server: Option<Backend.BackendServer>, events: seq<Event>)

  /** The trace of a retry sequence begun at attempt `from`. */
  ghost predicate RetryTrace(t: seq<Event>, i: int, start: StartOracle, from: int) {
    forall k :: 0 <= k < |t| ==> t[k] == RetryEvent(i, start, from, k)
  }

  /** The pacing promised between attempts, in a form that survives
      concatenation. */
  predicate WellPaced(t: seq<Event>) {
    DelayAfterEachFailure(t) && Joinable(t) && StartsWithoutDelay(t)
  }

  /** The first successful attempt of ordinal `i` from attempt `from` on,
      if any of the remaining attempts succeeds. */
  function FirstSuccess(i: int, start: StartOracle, from: int): (r: Option<int>)
    requires 1 <= from
    ensures r.Some? ==> FirstOk(i, start, from, r.value)
    ensures r.None? <==> forall a :: from <= a <= MaxAttempts ==> start(i, a).None?
    decreases MaxAttempts + 1 - from
  {
    if from > MaxAttempts then None
    else if start(i, from).Some? then Some(from)
    else FirstSuccess(i, start, from + 1)
  }

  /** The retry loop for one ordinal: up to three attempts, stopping at the
      first success, sleeping after every failed attempt, the third included. */
  function StartWithRetry(i: int, start: StartOracle, attempt: int): (r: Started)
    requires 1 <= attempt <= MaxAttempts + 1
    ensures var first := FirstSuccess(i, start, attempt);
      && (r.server.Some? <==> first.Some?)
      && (first.Some? ==>
            && r.server.value == Backend.BackendServer(i, Some(Listener(start(i, first.value).value, true)))
            && |r.events| == 2 * (first.value - attempt) + 1)
      && (first.None? ==> |r.events| == 2 * (MaxAttempts + 1 - attempt))
    ensures RetryTrace(r.events, i, start, attempt)
    ensures WellPaced(r.events)
    decreases MaxAttempts + 1 - attempt
  {
    if attempt > MaxAttempts then Started(None, [])
    else
      match Backend.NewBackendServer(i, start(i, attempt))
      case Ok(server) => Started(Some(server), [StartAttempt(i, attempt, true)])
      case Err(_) =>
        var rest := StartWithRetry(i, start, attempt + 1);
        RetryTraceCons(i, start, attempt, rest.events);
        JoinTraces([StartAttempt(i, attempt, false), Delay], rest.events);
        Started(rest.server, [StartAttempt(i, attempt, false), Delay] + rest.events)
  }

  /** The server numbers of a pool, in pool order. */
  function Numbers(pool: seq<Backend.BackendServer>): (r: seq<int>)
    ensures |r| == |pool|
    ensures forall k :: 0 <= k < |pool| ==> r[k] == pool[k].serverNumber
  {
    seq(|pool|, k requires 0 <= k < |pool| => pool[k].serverNumber)
  }

  /** A pool entry holds the listener of its ordinal's first successful attempt. */
  ghost predicate FromFirstSuccess(b: Backend.BackendServer, start: StartOracle) {
    exists a :: FirstOk(b.serverNumber, start, 1, a)
      && b == Backend.BackendServer(b.serverNumber, Some(Listener(start(b.serverNumber, a).value, true)))
  }

  /** The pool promised by the bootstrap over ordinals `lo..hi-1`: exactly
      the ordinals that came up, in increasing order, each holding the
      listener of its first successful attempt. */
  ghost predicate PoolMatches(pool: seq<Backend.BackendServer>, lo: int, hi: int, start: StartOracle) {
    && (forall k :: 0 <= k < |pool| ==> lo <= pool[k].serverNumber < hi)
    && (forall j :: lo <= j < hi ==> (j in Numbers(pool) <==> StartsWithinRetries(j, start)))
    && (forall a, b :: 0 <= a < b < |pool| ==> pool[a].serverNumber < pool[b].serverNumber)
    && (forall k :: 0 <= k < |pool| ==> FromFirstSuccess(pool[k], start))
  }

  /** Every attempt in the trace belongs to an ordinal in `lo..hi-1` and is
      one of its three tries; an ordinal's attempts come in increasing
      order, so there are at most three of them, and none follows a success. */
  ghost predicate AttemptsWithin(t: seq<Event>, lo: int, hi: int) {
    && (forall k :: 0 <= k < |t| && t[k].StartAttempt? ==>
          lo <= t[k].ordinal < hi && 1 <= t[k].attempt <= MaxAttempts)
    && (forall k1, k2 ::
          (0 <= k1 < k2 < |t| && t[k1].StartAttempt? && t[k2].StartAttempt? && t[k1].ordinal == t[k2].ordinal)
          ==> t[k1].attempt < t[k2].attempt && !t[k1].ok)
  }

  /** Try `a` of ordinal `j`, carrying the outcome the start actually had. */
  function AttemptOf(j: int, a: int, start: StartOracle): Event {
    StartAttempt(j, a, start(j, a).Some?)
  }

  /** Every try of ordinal `j` before try `a` failed. */
  predicate FailedBefore(j: int, a: int, start: StartOracle) {
    forall b :: 1 <= b < a ==> start(j, b).None?
  }

  /** Every attempt in the trace records its real outcome, and each ordinal
      in `lo..hi-1` is tried again and again until its first success or
      its third failure. */
  ghost predicate TriesFaithful(t: seq<Event>, lo: int, hi: int, start: StartOracle) {
    && (forall k :: 0 <= k < |t| && t[k].StartAttempt? ==> t[k].ok == start(t[k].ordinal, t[k].attempt).Some?)
    && (forall j, a :: lo <= j < hi && 1 <= a <= MaxAttempts && FailedBefore(j, a, start) ==> AttemptOf(j, a, start) in t)
  }

  /** An accept loop is launched for exactly the servers in the pool. */
  ghost predicate LaunchesMatch(pool: seq<Backend.BackendServer>, t: seq<Event>) {
    && (forall k :: 0 <= k < |t| && t[k].LaunchAcceptLoop? ==> t[k].ordinal in Numbers(pool))
    && (forall j :: j in Numbers(pool) ==> LaunchAcceptLoop(j) in t)
  }

  /** A retry sequence tries only its own ordinal and launches nothing. */
  lemma RetryTraceShape(i: int, start: StartOracle)
    ensures var t := StartWithRetry(i, start, 1).events;
      && AttemptsWithin(t, i, i + 1)
      && (forall k :: 0 <= k < |t| ==> t[k].StartAttempt? || t[k].Delay?)
  {
    RetryTriesOrdered(i, start);
    var t := StartWithRetry(i, start, 1).events;
    assert |t| <= 6;
    forall k | 0 <= k < |t| ensures t[k] == RetryEvent(i, start, 1, k) && k / 2 <= 2 {
    }
  }

  /** In a retry sequence the tries come in increasing order and only the
      last one can have succeeded. */
  lemma RetryTriesOrdered(i: int, start: StartOracle)
    ensures var t := StartWithRetry(i, start, 1).events;
      forall k1, k2 ::
        (0 <= k1 < k2 < |t| && t[k1].StartAttempt? && t[k2].StartAttempt? && t[k1].ordinal == t[k2].ordinal)
        ==> t[k1].attempt < t[k2].attempt && !t[k1].ok
  {
    var t := StartWithRetry(i, start, 1).events;
    var first := FirstSuccess(i, start, 1);
    forall k1, k2 | 0 <= k1 < k2 < |t| && t[k1].StartAttempt? && t[k2].StartAttempt?
      ensures t[k1].attempt < t[k2].attempt && !t[k1].ok
    {
      assert t[k1] == RetryEvent(i, start, 1, k1) && t[k2] == RetryEvent(i, start, 1, k2);
      assert k1 % 2 == 0 && k2 % 2 == 0;
      assert k1 / 2 < k2 / 2;
      if first.Some? {
        assert k2 <= 2 * (first.value - 1);
        assert 1 + k1 / 2 < first.value;
      }
    }
  }

  /** A retry sequence records each try's real outcome and keeps trying
      until the first success or the third failure. */
  lemma RetryTriesFaithful(i: int, start: StartOracle)
    ensures TriesFaithful(StartWithRetry(i, start, 1).events, i, i + 1, start)
  {
    var t := StartWithRetry(i, start, 1).events;
    var first := FirstSuccess(i, start, 1);
    forall k | 0 <= k < |t| && t[k].StartAttempt?
      ensures t[k].ok == start(t[k].ordinal, t[k].attempt).Some?
    {
      assert t[k] == RetryEvent(i, start, 1, k);
    }
    forall j, a | i <= j < i + 1 && 1 <= a <= MaxAttempts && FailedBefore(j, a, start)
      ensures AttemptOf(j, a, start) in t
    {
      var k := 2 * (a - 1);
      if first.Some? {
        assert a <= first.value;
      }
      assert k < |t| && t[k] == RetryEvent(i, start, 1, k);
    }
  }

  /** Faithful tries of ordinals `lo..mid-1` followed by faithful tries of
      ordinals `mid..hi-1`. */
  lemma TriesJoin(a: seq<Event>, b: seq<Event>, lo: int, mid: int, hi: int, start: StartOracle)
    requires lo <= mid <= hi
    requires TriesFaithful(a, lo, mid, start) && TriesFaithful(b, mid, hi, start)
    ensures TriesFaithful(a + b, lo, hi, start)
  {
    var t := a + b;
    forall k | 0 <= k < |t| && t[k].StartAttempt?
      ensures t[k].ok == start(t[k].ordinal, t[k].attempt).Some?
    {
      if k < |a| { assert t[k] == a[k]; } else { assert t[k] == b[k - |a|]; }
    }
    forall j, x | lo <= j < hi && 1 <= x <= MaxAttempts && FailedBefore(j, x, start)
      ensures AttemptOf(j, x, start) in t
    {
      if j < mid { assert AttemptOf(j, x, start) in a; } else { assert AttemptOf(j, x, start) in b; }
    }
  }

  /** Attempts of ordinals `lo..mid-1` followed by attempts of ordinals
      `mid..hi-1`. */
  lemma AttemptsWithinJoin(a: seq<Event>, b: seq<Event>, lo: int, mid: int, hi: int)
    requires lo <= mid <= hi
    requires AttemptsWithin(a, lo, mid) && AttemptsWithin(b, mid, hi)
    ensures AttemptsWithin(a + b, lo, hi)
  {
    var t := a + b;
    forall k | 0 <= k < |t| && t[k].StartAttempt?
      ensures lo <= t[k].ordinal < hi && 1 <= t[k].attempt <= MaxAttempts
    {
      if k < |a| { assert t[k] == a[k]; } else { assert t[k] == b[k - |a|]; }
    }
    forall k1, k2 | 0 <= k1 < k2 < |t| && t[k1].StartAttempt? && t[k2].StartAttempt?
        && t[k1].ordinal == t[k2].ordinal
      ensures t[k1].attempt < t[k2].attempt && !t[k1].ok
    {
      if k2 < |a| {
        assert t[k1] == a[k1] && t[k2] == a[k2];
      } else if k1 >= |a| {
        assert t[k1] == b[k1 - |a|] && t[k2] == b[k2 - |a|];
      } else {
        assert false;
      }
    }
  }

  datatype Boot = Boot(pool: seq<Backend.BackendServer>, events: seq<Event>)

  /** What the bootstrap loop over ordinals `i..n-1` promises of its result. */
  ghost predicate BootFacts(r: Boot, i: int, n: int, start: StartOracle) {
    && PoolMatches(r.pool, i, n, start)
    && WellPaced(r.events)
    && AttemptsWithin(r.events, i, n)
    && TriesFaithful(r.events, i, n, start)
    && LaunchesMatch(r.pool, r.events)
    && OpenListener !in r.events
  }

  /** Ordinal `i` never came up: it is skipped, its attempts stay in the trace. */
  lemma SkipOrdinal(i: int, n: int, start: StartOracle, rest: Boot, r: Boot)
    requires i < n && BootFacts(rest, i + 1, n, start)
    requires StartWithRetry(i, start, 1).server.None?
    requires r == Boot(rest.pool, StartWithRetry(i, start, 1).events + rest.events)
    ensures BootFacts(r, i, n, start)
  {
    var t := StartWithRetry(i, start, 1).events;
    RetryTraceShape(i, start);
    RetryTriesFaithful(i, start);
    assert FirstSuccess(i, start, 1).None?;
    SkipPool(i, n, start, rest.pool);
    SkipTrace(i, n, start, t, rest);
  }

  /** The trace of a skipped ordinal: its attempts, then the trace of the
      later ordinals. */
  lemma SkipTrace(i: int, n: int, start: StartOracle, t: seq<Event>, rest: Boot)
    requires i < n
    requires WellPaced(t) && AttemptsWithin(t, i, i + 1) && TriesFaithful(t, i, i + 1, start)
    requires forall k :: 0 <= k < |t| ==> t[k].StartAttempt? || t[k].Delay?
    requires WellPaced(rest.events) && AttemptsWithin(rest.events, i + 1, n)
    requires TriesFaithful(rest.events, i + 1, n, start)
    requires LaunchesMatch(rest.pool, rest.events) && OpenListener !in rest.events
    ensures var all := t + rest.events;
      && WellPaced(all) && AttemptsWithin(all, i, n) && TriesFaithful(all, i, n, start)
      && LaunchesMatch(rest.pool, all) && OpenListener !in all
  {
    JoinTraces(t, rest.events);
    AttemptsWithinJoin(t, rest.events, i, i + 1, n);
    TriesJoin(t, rest.events, i, i + 1, n, start);
    SkipLaunches(t, rest);
    assert OpenListener !in t;
  }

  lemma SkipPool(i: int, n: int, start: StartOracle, pool: seq<Backend.BackendServer>)
    requires i < n && PoolMatches(pool, i + 1, n, start)
    requires forall a :: 1 <= a <= MaxAttempts ==> start(i, a).None?
    ensures PoolMatches(pool, i, n, start)
  {
    assert !StartsWithinRetries(i, start);
    assert i !in Numbers(pool);
  }

  lemma SkipLaunches(t: seq<Event>, rest: Boot)
    requires forall k :: 0 <= k < |t| ==> t[k].StartAttempt? || t[k].Delay?
    requires LaunchesMatch(rest.pool, rest.events)
    ensures LaunchesMatch(rest.pool, t + rest.events)
  {
    var all := t + rest.events;
    forall k | 0 <= k < |all| && all[k].LaunchAcceptLoop? ensures all[k].ordinal in Numbers(rest.pool) {
      assert k >= |t| && all[k] == rest.events[k - |t|];
    }
  }

  /** Putting a started server for ordinal `i` in front of the pool built
      for the later ordinals gives the pool for `i..n-1`. */
  lemma KeepPool(i: int, n: int, start: StartOracle, server: Backend.BackendServer, rest: seq<Backend.BackendServer>)
    requires i < n && PoolMatches(rest, i + 1, n, start)
    requires server.serverNumber == i && StartsWithinRetries(i, start) && FromFirstSuccess(server, start)
    ensures PoolMatches([server] + rest, i, n, start)
  {
    var pool := [server] + rest;
    assert Numbers(pool) == [i] + Numbers(rest);
    forall k | 1 <= k < |pool| ensures pool[k] == rest[k - 1] && i < pool[k].serverNumber < n {
    }
    forall a, b | 0 <= a < b < |pool| ensures pool[a].serverNumber < pool[b].serverNumber {
      if a > 0 { assert pool[a] == rest[a - 1]; }
    }
  }

  /** The trace of a kept ordinal: its attempts, the launch of its accept
      loop, then the trace of the later ordinals. */
  lemma KeepTrace(i: int, n: int, t: seq<Event>, server: Backend.BackendServer, rest: Boot)
    requires i < n && server.serverNumber == i
    requires WellPaced(t) && AttemptsWithin(t, i, i + 1)
    requires forall k :: 0 <= k < |t| ==> t[k].StartAttempt? || t[k].Delay?
    requires WellPaced(rest.events) && AttemptsWithin(rest.events, i + 1, n)
    requires LaunchesMatch(rest.pool, rest.events) && OpenListener !in rest.events
    ensures var all := t + [LaunchAcceptLoop(i)] + rest.events;
      && WellPaced(all) && AttemptsWithin(all, i, n)
      && LaunchesMatch([server] + rest.pool, all) && OpenListener !in all
  {
    var launched := t + [LaunchAcceptLoop(i)];
    JoinTraces(t, [LaunchAcceptLoop(i)]);
    JoinTraces(launched, rest.events);
    AttemptsWithinJoin(t, [LaunchAcceptLoop(i)], i, i + 1, i + 1);
    AttemptsWithinJoin(launched, rest.events, i, i + 1, n);
    KeepLaunches(i, t, server, rest);
    assert OpenListener !in t;
  }

  lemma KeepLaunches(i: int, t: seq<Event>, server: Backend.BackendServer, rest: Boot)
    requires server.serverNumber == i
    requires forall k :: 0 <= k < |t| ==> t[k].StartAttempt? || t[k].Delay?
    requires LaunchesMatch(rest.pool, rest.events)
    ensures LaunchesMatch([server] + rest.pool, t + [LaunchAcceptLoop(i)] + rest.events)
  {
    var pool := [server] + rest.pool;
    var launched := t + [LaunchAcceptLoop(i)];
    var all := launched + rest.events;
    assert Numbers(pool) == [i] + Numbers(rest.pool);
    forall k | 0 <= k < |all| && all[k].LaunchAcceptLoop? ensures all[k].ordinal in Numbers(pool) {
      if k == |t| { assert all[k] == LaunchAcceptLoop(i); }
      else if k > |t| { assert all[k] == rest.events[k - |launched|]; }
    }
    forall j | j in Numbers(pool) ensures LaunchAcceptLoop(j) in all {
      if j == i { assert all[|t|] == LaunchAcceptLoop(i); }
      else { assert j in Numbers(rest.pool); }
    }
  }

  /** Ordinal `i` came up: its server heads the pool and its accept loop is
      launched before the next ordinal is tried. */
  lemma KeepOrdinal(i: int, n: int, start: StartOracle, rest: Boot, r: Boot)
    requires i < n && BootFacts(rest, i + 1, n, start)
    requires StartWithRetry(i, start, 1).server.Some?
    requires var s := StartWithRetry(i, start, 1);
      r == Boot([s.server.value] + rest.pool, s.events + [LaunchAcceptLoop(i)] + rest.events)
    ensures BootFacts(r, i, n, start)
  {
    var s := StartWithRetry(i, start, 1);
    RetryTraceShape(i, start);
    RetryTriesFaithful(i, start);
    var a := FirstSuccess(i, start, 1).value;
    assert FirstOk(i, start, 1, a);
    assert StartsWithinRetries(i, start);
    assert FromFirstSuccess(s.server.value, start);
    KeepPool(i, n, start, s.server.value, rest.pool);
    KeepTrace(i, n, s.events, s.server.value, rest);
    TriesJoin(s.events, [LaunchAcceptLoop(i)], i, i + 1, i + 1, start);
    TriesJoin(s.events + [LaunchAcceptLoop(i)], rest.events, i, i + 1, n, start);
  }

  /** The loop over ordinals `i..n-1`: retry each, skip the ones that never
      came up, append the others and launch their accept loops. */
  function StartFrom(i: int, n: int, start: StartOracle): (r: Boot)
    ensures |r.pool| <= if i < n then n - i else 0
    decreases n - i
  {
    if i >= n then Boot([], [])
    else
      var s := StartWithRetry(i, start, 1);
      var rest := StartFrom(i + 1, n, start);
      match s.server
      case None => Boot(rest.pool, s.events + rest.events)
      case Some(server) => Boot([server] + rest.pool, s.events + [LaunchAcceptLoop(i)] + rest.events)
  }

  /** The loop over ordinals `i..n-1` builds exactly the pool of the ordinals
      that came up, in increasing order, each from its first successful
      attempt; it launches an accept loop for exactly those, tries only
      these ordinals, each until its first success or third failure and
      never more, records every attempt's real outcome, and follows every
      failed attempt with a delay. */
  lemma {:induction false} StartFromBuildsPool(i: int, n: int, start: StartOracle)
    ensures BootFacts(StartFrom(i, n, start), i, n, start)
    decreases n - i
  {
    if i < n {
      StartFromBuildsPool(i + 1, n, start);
      StartFromStep(i, n, start);
    }
  }

  /** One turn of the loop over ordinals keeps the bootstrap's promises. */
  lemma StartFromStep(i: int, n: int, start: StartOracle)
    requires i < n && BootFacts(StartFrom(i + 1, n, start), i + 1, n, start)
    ensures BootFacts(StartFrom(i, n, start), i, n, start)
  {
    var rest := StartFrom(i + 1, n, start);
    if StartWithRetry(i, start, 1).server.None? {
      SkipOrdinal(i, n, start, rest, StartFrom(i, n, start));
    } else {
      KeepOrdinal(i, n, start, rest, StartFrom(i, n, start));
    }
  }

  /** The pool is empty exactly when no ordinal came up within its retries. */
  lemma EmptyPoolIffNoneStarted(pool: seq<Backend.BackendServer>, n: int, start: StartOracle)
    requires PoolMatches(pool, 0, n, start)
    ensures |pool| == 0 <==> forall j :: 0 <= j < n ==> !StartsWithinRetries(j, start)
  {
    if |pool| == 0 {
      forall j | 0 <= j < n ensures !StartsWithinRetries(j, start) {
        assert j !in Numbers(pool);
      }
    } else {
      var j := pool[0].serverNumber;
      assert j in Numbers(pool);
    }
  }

  /** The balancer: its pool, its own listener and the dispatch counter. */
  datatype LoadBalancer = LoadBalancer(backend: seq<Backend.BackendServer>, listener: Listener, next: Uint32)

  datatype Built = Built(result: Result<LoadBalancer>, events: seq<Event>)

  predicate CountInRange(numOfServers: int) {
    !(numOfServers == 0 || numOfServers > MaxServers)
  }

  /** `NewLoadBalancer(numOfServers)`. Only 0 and counts above 1000 are
      rejected; the balancer's listener is opened before any backend is
      started; an empty pool is an error. */
  function NewLoadBalancer(numOfServers: int, listen: Option<nat>, start: StartOracle): (r: Built)
    ensures !CountInRange(numOfServers) ==> r == Built(Err(ConfigError), [])
    ensures CountInRange(numOfServers) ==>
      |r.events| > 0 && r.events[0] == OpenListener && OpenListener !in r.events[1..]
    ensures CountInRange(numOfServers) && listen.None? ==> r == Built(Err(BindError), [OpenListener])
    ensures r.result == Err(PoolExhausted) <==>
      CountInRange(numOfServers) && listen.Some?
      && forall j :: 0 <= j < numOfServers ==> !StartsWithinRetries(j, start)
    ensures r.result.Ok? <==>
      CountInRange(numOfServers) && listen.Some?
      && exists j :: 0 <= j < numOfServers && StartsWithinRetries(j, start)
    ensures r.result.Ok? ==>
      && |r.result.value.backend| > 0
      && PoolMatches(r.result.value.backend, 0, numOfServers, start)
      && r.result.value.listener == Listener(listen.value, true)
      && r.result.value.next == 0
    ensures DelayAfterEachFailure(r.events)
    ensures CountInRange(numOfServers) && listen.Some? ==>
      BootFacts(Boot(if r.result.Ok? then r.result.value.backend else [], r.events[1..]), 0, numOfServers, start)
  {
    if !CountInRange(numOfServers) then Built(Err(ConfigError), [])
    else match listen
      case None => Built(Err(BindError), [OpenListener])
      case Some(addr) =>
        var boot := StartFrom(0, numOfServers, start);
        StartFromBuildsPool(0, numOfServers, start);
        JoinTraces([OpenListener], boot.events);
        assert ([OpenListener] + boot.events)[1..] == boot.events;
        EmptyPoolIffNoneStarted(boot.pool, numOfServers, start);
        if |boot.pool| == 0 then Built(Err(PoolExhausted), [OpenListener] + boot.events)
        else Built(Ok(LoadBalancer(boot.pool, Listener(addr, true), 0)), [OpenListener] + boot.events)
  }

  /** A negative count slips past the range check, starts nothing, and ends
      in the empty-pool error. */
  lemma NegativeCountExhaustsPool(numOfServers: int, addr: nat, start: StartOracle)
    requires numOfServers < 0
    ensures NewLoadBalancer(numOfServers, Some(addr), start) == Built(Err(PoolExhausted), [OpenListener])
  {
  }

  /** One client dispatched: `dialOk` says whether `net.Dial` to the chosen
      backend succeeded. */
  datatype Client = Client(stream: string, dialOk: bool)

  /** A relayed client receives the backend's reply to its stream; a failed
      dial closes the client with nothing relayed. */
  datatype Dispatched = Relayed(index: nat, reply: Option<string>) | DialFailed(index: nat)

  datatype Step = Step(lb: LoadBalancer, outcome: Dispatched)

  /** `pipeConnections`: load the counter, pick `backend[next % len]`, bump
      the counter, then dial. */
  function PipeConnection(lb: LoadBalancer, client: Client): (r: Step)
    requires |lb.backend| > 0
    ensures r.outcome.index < |lb.backend|
    ensures r.lb == lb.(next := Wrap(lb.next, 1))
    ensures r.outcome.Relayed? <==> client.dialOk
    ensures r.outcome.Relayed? ==>
      r.outcome.reply == Backend.HandleConnection(lb.backend[r.outcome.index], client.stream)
  {
    var index := lb.next;
    var i := index % |lb.backend|;
    var lb' := lb.(next := AddUint32(lb.next, 1));
    if client.dialOk then Step(lb', Relayed(i, Backend.HandleConnection(lb.backend[i], client.stream)))
    else Step(lb', DialFailed(i))
  }

  /** The inline counter picks exactly what the round-robin policy picks. */
  lemma PipeConnectionIsRoundRobin(lb: LoadBalancer, client: Client)
    requires |lb.backend| > 0
    ensures var p := Next(RoundRobin(lb.next), |lb.backend|);
      PipeConnection(lb, client).outcome.index == p.index
      && PipeConnection(lb, client).lb.next == p.state.counter
  {
  }

  datatype Dispatches = Dispatches(lb: LoadBalancer, outcomes: seq<Dispatched>)

  /** The positions the outcomes were sent to, in order. */
  function Indices(outcomes: seq<Dispatched>): (r: seq<int>)
    ensures |r| == |outcomes|
    ensures forall k :: 0 <= k < |outcomes| ==> r[k] == outcomes[k].index
  {
    seq(|outcomes|, k requires 0 <= k < |outcomes| => outcomes[k].index)
  }

  /** The outcome lies in the pool, is relayed exactly when the client's
      dial succeeded, and a relayed client receives the reply of the backend
      at that position to its stream. */
  predicate ServedAt(o: Dispatched, pool: seq<Backend.BackendServer>, client: Client) {
    && o.index < |pool|
    && (o.Relayed? <==> client.dialOk)
    && (o.Relayed? ==> o.reply == Backend.HandleConnection(pool[o.index], client.stream))
  }

  predicate Served(outcomes: seq<Dispatched>, pool: seq<Backend.BackendServer>, clients: seq<Client>)
    requires |outcomes| == |clients|
  {
    forall k :: 0 <= k < |outcomes| ==> ServedAt(outcomes[k], pool, clients[k])
  }

  lemma ServedCons(o: Dispatched, rest: seq<Dispatched>, pool: seq<Backend.BackendServer>, clients: seq<Client>)
    requires |clients| > 0 && |rest| == |clients| - 1
    requires ServedAt(o, pool, clients[0]) && Served(rest, pool, clients[1..])
    ensures Served([o] + rest, pool, clients)
  {
    var all := [o] + rest;
    forall k | 0 <= k < |all| ensures ServedAt(all[k], pool, clients[k]) {
      if k > 0 {
        assert all[k] == rest[k - 1] && clients[k] == clients[1..][k - 1];
      }
    }
  }

  lemma IndicesCons(o: Dispatched, rest: seq<Dispatched>)
    ensures Indices([o] + rest) == [o.index] + Indices(rest)
  {
  }

  /** Clients dispatched one after another, each fully before the next:
      the k-th goes to position `((next + k) mod 2^32) mod len`, dial
      failures included, and the counter ends advanced by the number of
      clients. */
  function DispatchAll(lb: LoadBalancer, clients: seq<Client>): (r: Dispatches)
    requires |lb.backend| > 0
    ensures r.lb == lb.(next := Wrap(lb.next, |clients|))
    ensures |r.outcomes| == |clients|
    ensures RotatesFrom(Indices(r.outcomes), lb.next, |lb.backend|)
    ensures Served(r.outcomes, lb.backend, clients)
    decreases |clients|
  {
    if |clients| == 0 then Dispatches(lb, [])
    else
      var step := PipeConnection(lb, clients[0]);
      var rest := DispatchAll(step.lb, clients[1..]);
      ShiftWrapped(lb.next, |clients| - 1);
      IndicesCons(step.outcome, rest.outcomes);
      RotatesFromCons(lb.next, |lb.backend|, Indices(rest.outcomes));
      ServedCons(step.outcome, rest.outcomes, lb.backend, clients);
      Dispatches(rest.lb, [step.outcome] + rest.outcomes)
  }

  /** Two runs of picks from the same counter over the same pool, of the
      same length, are the same. */
  lemma RotationsAgree(a: seq<int>, b: seq<int>, c: Uint32, n: int)
    requires n > 0 && |a| == |b| && RotatesFrom(a, c, n) && RotatesFrom(b, c, n)
    ensures a == b
  {
  }

  /** The inline counter of the balancer and the round-robin policy agree
      over any run of dispatches: same positions in the same order, same
      counter afterwards. */
  lemma DispatchAllFollowsRoundRobin(lb: LoadBalancer, clients: seq<Client>)
    requires |lb.backend| > 0
    ensures var run := Calls(RoundRobin(lb.next), |lb.backend|, |clients|);
      var d := DispatchAll(lb, clients);
      Indices(d.outcomes) == run.picks && d.lb.next == run.state.counter
  {
    var run := Calls(RoundRobin(lb.next), |lb.backend|, |clients|);
    RotationsAgree(Indices(DispatchAll(lb, clients).outcomes), run.picks, lb.next, |lb.backend|);
  }

  /** `AcceptConnections`: dispatch each accepted client until the first
      accept error; a closed listener is the quiet stop. */
  datatype Accepting = Accepting(lb: LoadBalancer, outcomes: seq<Dispatched>, stop: Stop)

  function AcceptConnections(lb: LoadBalancer, events: seq<Accepted<Client>>): (r: Accepting)
    requires |lb.backend| > 0
    ensures r.stop == AcceptLoop(events).stop
    ensures |r.outcomes| == |AcceptLoop(events).handled|
    ensures forall k :: 0 <= k < |r.outcomes| ==>
      events[k].Conn? && (r.outcomes[k].Relayed? <==> events[k].conn.dialOk)
    ensures r.lb == lb.(next := Wrap(lb.next, |r.outcomes|))
    ensures RotatesFrom(Indices(r.outcomes), lb.next, |lb.backend|)
    ensures Served(r.outcomes, lb.backend, AcceptLoop(events).handled)
  {
    var served := AcceptLoop(events);
    var d := DispatchAll(lb, served.handled);
    Accepting(d.lb, d.outcomes, served.stop)
  }

  /** The accept loop dispatches its accepted clients as a plain run of
      dispatches would, and nothing offered after the first accept error
      is dispatched or moves the counter. */
  lemma AcceptConnectionsStopsAtFirstError(lb: LoadBalancer, before: seq<Accepted<Client>>,
                                           err: Accepted<Client>, after: seq<Accepted<Client>>)
    requires |lb.backend| > 0
    requires forall k :: 0 <= k < |before| ==> before[k].Conn?
    requires err.AcceptError?
    ensures var r := AcceptConnections(lb, before + [err] + after);
      var clients := seq(|before|, k requires 0 <= k < |before| => before[k].conn);
      && r == AcceptConnections(lb, before + [err])
      && r.stop == (if err.closed then Graceful else Failed)
      && r.lb == lb.(next := Wrap(lb.next, |before|))
      && r.outcomes == DispatchAll(lb, clients).outcomes
  {
    AcceptLoopStopsAtFirstError(before, err, after);
    AcceptLoopConnsThenError(before, err);
  }

  /** `Addr`: the address of the balancer's own listener. */
  function Addr(lb: LoadBalancer): nat {
    lb.listener.addr
  }

  /** The balancer answers on the address its listener was bound to, and
      dispatching never moves it. */
  lemma AddrIsBoundListener(n: int, addr: nat, start: StartOracle, clients: seq<Client>)
    requires NewLoadBalancer(n, Some(addr), start).result.Ok?
    ensures var lb := NewLoadBalancer(n, Some(addr), start).result.value;
      Addr(lb) == addr && Addr(DispatchAll(lb, clients).lb) == addr
  {
  }

  /** Every ordinal comes up at its first attempt. */
  predicate AllStartAtOnce(n: int, start: StartOracle) {
    forall j :: 0 <= j < n ==> start(j, 1).Some?
  }

  lemma {:induction false} AllStartFromFillsPool(i: int, n: int, start: StartOracle)
    requires i <= n
    requires forall j :: i <= j < n ==> start(j, 1).Some?
    ensures |StartFrom(i, n, start).pool| == n - i
    ensures forall k :: 0 <= k < n - i ==> StartFrom(i, n, start).pool[k].serverNumber == i + k
    decreases n - i
  {
    if i < n {
      AllStartFromFillsPool(i + 1, n, start);
      var first := StartWithRetry(i, start, 1);
      var rest := StartFrom(i + 1, n, start);
      assert start(i, 1).Some?;
      assert first.server.Some? && first.server.value.serverNumber == i;
      var pool := StartFrom(i, n, start).pool;
      assert pool == [first.server.value] + rest.pool;
      forall k | 0 <= k < n - i ensures pool[k].serverNumber == i + k {
        if k > 0 { assert pool[k] == rest.pool[k - 1]; }
      }
    }
  }

  /** When every backend comes up at once, the pool holds backends 0..n-1
      in order and the counter starts at 0. */
  lemma AllStartBuildsOrderedPool(n: int, addr: nat, start: StartOracle)
    requires 1 <= n <= MaxServers && AllStartAtOnce(n, start)
    ensures var r := NewLoadBalancer(n, Some(addr), start).result;
      && r.Ok? && |r.value.backend| == n && r.value.next == 0
      && forall k :: 0 <= k < n ==> r.value.backend[k].serverNumber == k
  {
    AllStartFromFillsPool(0, n, start);
    BuiltFromPool(n, addr, start);
  }

  /** A count in range, a listen that worked and a non-empty pool: the
      balancer holds that pool, its listener and a fresh counter. */
  lemma BuiltFromPool(n: int, addr: nat, start: StartOracle)
    requires CountInRange(n) && |StartFrom(0, n, start).pool| > 0
    ensures NewLoadBalancer(n, Some(addr), start).result
         == Ok(LoadBalancer(StartFrom(0, n, start).pool, Listener(addr, true), 0))
  {
  }

  /** Before the counter wraps and within one lap, the k-th pick is k. */
  lemma FirstLapIndex(k: nat, n: int)
    requires k < n <= MaxServers
    ensures Wrap(0, k) % n == k
  {
    DivModUnique(k, Modulus, 0, k);
    DivModUnique(k, n, 0, k);
  }

  /** On a fresh counter the first lap of dispatch visits the pool in order. */
  lemma FirstLapInOrder(lb: LoadBalancer, clients: seq<Client>)
    requires 0 < |lb.backend| <= MaxServers && |clients| <= |lb.backend| && lb.next == 0
    ensures forall k :: 0 <= k < |clients| ==> DispatchAll(lb, clients).outcomes[k].index == k
  {
    forall k | 0 <= k < |clients| {
      FirstLapIndex(k, |lb.backend|);
    }
  }

  /** A balancer whose pool is numbered 0, 1, ... and whose counter is 0
      sends its k-th client to backend number k, as long as there are no
      more clients than backends. */
  lemma OrderedPoolServesInOrder(lb: LoadBalancer, clients: seq<Client>)
    requires 0 < |lb.backend| <= MaxServers && |clients| <= |lb.backend| && lb.next == 0
    requires forall k :: 0 <= k < |clients| ==> clients[k].dialOk
    ensures var out := DispatchAll(lb, clients).outcomes;
      forall k :: 0 <= k < |clients| ==>
        out[k] == Relayed(k, Backend.HandleConnection(lb.backend[k], clients[k].stream))
  {
    var out := DispatchAll(lb, clients).outcomes;
    FirstLapInOrder(lb, clients);
    forall k | 0 <= k < |clients|
      ensures out[k] == Relayed(k, Backend.HandleConnection(lb.backend[k], clients[k].stream))
    {
      assert out[k].Relayed? && out[k].index == k;
    }
  }

  /** The balancer test, for any pool size: on a pool numbered 0, 1, ...
      with a fresh counter, up to one client per backend, each sending
      "HELLO\n" one after another; the k-th is answered
      "Server k ACK: HELLO\n". */
  lemma OrderedPoolGreetsInOrder(lb: LoadBalancer, hello: string, clients: seq<Client>)
    requires 0 < |lb.backend| <= MaxServers && |clients| <= |lb.backend| && lb.next == 0
    requires forall k :: 0 <= k < |lb.backend| ==> lb.backend[k].serverNumber == k
    requires hello == "HELLO\n"
    requires forall k :: 0 <= k < |clients| ==> clients[k] == Client(hello, true)
    ensures var out := DispatchAll(lb, clients).outcomes;
      forall k :: 0 <= k < |clients| ==>
        out[k] == Relayed(k, Some(Backend.ServerTag + FormatInt(k) + " ACK: HELLO\n"))
  {
    OrderedPoolServesInOrder(lb, clients);
    forall k | 0 <= k < |clients|
      ensures Backend.HandleConnection(lb.backend[k], hello) == Some(Backend.ServerTag + FormatInt(k) + " ACK: HELLO\n")
    {
      HelloReply(lb.backend[k], hello);
    }
  }

  lemma HelloReply(b: Backend.BackendServer, hello: string)
    requires hello == "HELLO\n"
    ensures Backend.HandleConnection(b, hello) == Some(Backend.ServerTag + FormatInt(b.serverNumber) + " ACK: HELLO\n")
  {
    HelloUpper(hello);
    Backend.ReplyOfLine(b, hello);
    HelloReplyText(b.serverNumber);
  }

  lemma HelloReplyText(k: int)
    ensures Backend.ReplyPrefix(k) + "HELLO" + [Newline] == Backend.ServerTag + FormatInt(k) + " ACK: HELLO\n"
  {
    assert Backend.ReplyPrefix(k) + "HELLO" + [Newline]
        == Backend.ServerTag + FormatInt(k) + (Backend.AckTag + "HELLO" + [Newline]);
  }

  lemma HelloUpper(s: string)
    requires s == "HELLO\n"
    ensures ReadLine(s) == Some(s)
    ensures Normalize(s) == "HELLO"
  {
    UpperHelloParts(s);
    Backend.PlainLineNormalized("HELLO", s);
  }

  lemma UpperHelloParts(s: string)
    requires s == "HELLO\n"
    ensures Newline !in "HELLO" && NoEdgeSpace("HELLO") && s == "HELLO" + [Newline]
    ensures Upper("HELLO") == "HELLO"
  {
  }

  // ---- shutdown ----

  /** One step of `Close`, in the order taken. */
  datatype CloseStep = CloseBackend(position: nat, failed: bool) | CloseOwnListener

  datatype PoolClosed = PoolClosed(pool: seq<Backend.BackendServer>, steps: seq<CloseStep>)

  /** The loop over the pool: close each backend, log a failure and go on. */
  function ClosePool(pool: seq<Backend.BackendServer>, outcome: int -> Option<Error>): (r: PoolClosed)
    ensures |r.pool| == |pool| == |r.steps|
    ensures forall k :: 0 <= k < |pool| ==>
      var c := Backend.Close(pool[k], outcome(k));
      r.pool[k] == c.server && r.steps[k] == CloseBackend(k, c.err.Some?)
    decreases |pool|
  {
    if |pool| == 0 then PoolClosed([], [])
    else
      var last := |pool| - 1;
      var init := ClosePool(pool[..last], outcome);
      var c := Backend.Close(pool[last], outcome(last));
      PoolClosed(init.pool + [c.server], init.steps + [CloseBackend(last, c.err.Some?)])
  }

  datatype Shutdown = Shutdown(lb: LoadBalancer, steps: seq<CloseStep>, err: Option<Error>)

  /** `Close`: every backend first, whatever their results, then the
      balancer's own listener, whose result alone is returned. */
  function Close(lb: LoadBalancer, backendOutcome: int -> Option<Error>, listenerOutcome: Option<Error>): (r: Shutdown)
    ensures r.err == listenerOutcome
    ensures !r.lb.listener.open && r.lb.listener.addr == lb.listener.addr
    ensures |r.lb.backend| == |lb.backend|
    ensures forall k :: 0 <= k < |lb.backend| && lb.backend[k].listener.Some? ==>
      r.lb.backend[k].serverNumber == lb.backend[k].serverNumber
      && r.lb.backend[k].listener.Some? && !r.lb.backend[k].listener.value.open
      && r.lb.backend[k].listener.value.addr == lb.backend[k].listener.value.addr
    ensures forall k :: 0 <= k < |lb.backend| && lb.backend[k].listener.None? ==>
      r.lb.backend[k] == lb.backend[k]
    ensures |r.steps| == |lb.backend| + 1 && r.steps[|lb.backend|] == CloseOwnListener
    ensures forall k :: 0 <= k < |lb.backend| ==> r.steps[k].CloseBackend? && r.steps[k].position == k
    ensures r.lb.next == lb.next
  {
    var closed := ClosePool(lb.backend, backendOutcome);
    var l := CloseListener(lb.listener, listenerOutcome);
    Shutdown(lb.(backend := closed.pool, listener := l.listener), closed.steps + [CloseOwnListener], l.err)
  }

  /** Closing a balancer just built leaves every backend of its pool and its
      own listener closed, whatever each close reported. */
  lemma CloseAfterBootstrapClosesAll(n: int, addr: nat, start: StartOracle,
                                     backendOutcome: int -> Option<Error>, listenerOutcome: Option<Error>)
    requires NewLoadBalancer(n, Some(addr), start).result.Ok?
    ensures var lb := NewLoadBalancer(n, Some(addr), start).result.value;
      var s := Close(lb, backendOutcome, listenerOutcome);
      && !s.lb.listener.open
      && Numbers(s.lb.backend) == Numbers(lb.backend)
      && (forall k :: 0 <= k < |s.lb.backend| ==>
            s.lb.backend[k].listener.Some? && !s.lb.backend[k].listener.value.open)
      && s.err == listenerOutcome
  {
    var lb := NewLoadBalancer(n, Some(addr), start).result.value;
    BootstrappedBackendsListen(n, addr, start);
    CloseListeningPool(lb, backendOutcome, listenerOutcome);
  }

  /** Every backend in a freshly built pool holds an open listener. */
  lemma BootstrappedBackendsListen(n: int, addr: nat, start: StartOracle)
    requires NewLoadBalancer(n, Some(addr), start).result.Ok?
    ensures var pool := NewLoadBalancer(n, Some(addr), start).result.value.backend;
      forall k :: 0 <= k < |pool| ==> pool[k].listener.Some? && pool[k].listener.value.open
  {
    var pool := NewLoadBalancer(n, Some(addr), start).result.value.backend;
    assert PoolMatches(pool, 0, n, start);
    forall k | 0 <= k < |pool| ensures pool[k].listener.Some? && pool[k].listener.value.open {
      assert FromFirstSuccess(pool[k], start);
    }
  }

  /** When every backend has a listener, `Close` leaves all of them closed
      and keeps the pool's numbering. */
  lemma CloseListeningPool(lb: LoadBalancer, backendOutcome: int -> Option<Error>, listenerOutcome: Option<Error>)
    requires forall k :: 0 <= k < |lb.backend| ==> lb.backend[k].listener.Some?
    ensures var s := Close(lb, backendOutcome, listenerOutcome);
      && Numbers(s.lb.backend) == Numbers(lb.backend)
      && (forall k :: 0 <= k < |s.lb.backend| ==>
            s.lb.backend[k].listener.Some? && !s.lb.backend[k].listener.value.open)
  {
    var s := Close(lb, backendOutcome, listenerOutcome);
    assert Numbers(s.lb.backend) == Numbers(lb.backend);
  }

  /** Backend close failures change only which failures are logged: the
      closed state and the returned error are the same either way. */
  lemma CloseIgnoresBackendErrors(lb: LoadBalancer, o1: int -> Option<Error>, o2: int -> Option<Error>,
                                  listenerOutcome: Option<Error>)
    ensures Close(lb, o1, listenerOutcome).err == Close(lb, o2, listenerOutcome).err
    ensures Close(lb, o1, listenerOutcome).lb == Close(lb, o2, listenerOutcome).lb
  {
    var p1 := ClosePool(lb.backend, o1).pool;
    var p2 := ClosePool(lb.backend, o2).pool;
    assert p1 == p2 by {
      forall k | 0 <= k < |p1| ensures p1[k] == p2[k] {
        assert Backend.Close(lb.backend[k], o1(k)).server == Backend.Close(lb.backend[k], o2(k)).server;
      }
    }
  }
}

=== FILE: common.dfy ===
/** Shared vocabulary of the load balancer model: optional values, results
    carrying the error kinds the Go code returns, and Go's integer remainder. */
module Common {

  datatype Option<+T> = None | Some(value: T)

  /** The error kinds that the modelled code can surface to a caller. */
  datatype Error =
    | ConfigError      // server count outside 1..1000
    | BindError        // net.Listen failed
    | PoolExhausted    // no backend ordinal started within its attempts
    | CloseError       // closing a listener reported an error

  datatype Result<+T> = Ok(value: T) | Err(error: Error)

  function Abs(x: int): (r: nat)
    ensures r == x || r == -x
  {
    if x < 0 then -x else x
  }

  /** Go's `%` on signed integers: the quotient is truncated toward zero,
      so the remainder takes the sign of the dividend. */
  function GoRem(a: int, b: int): (r: int)
    requires b != 0
    ensures a >= 0 ==> 0 <= r < Abs(b)
    ensures a < 0 ==> -(Abs(b) as int) < r <= 0
    ensures (a - r) % Abs(b) == 0
  {
    var m := Abs(b);
    if a >= 0 then
      RemLeavesMultiple(a, m);
      a % m
    else
      RemLeavesMultiple(-a, m);
      -((-a) % m)
  }

  /** Taking away the remainder leaves a multiple of the divisor. */
  lemma RemLeavesMultiple(x: int, m: int)
    requires m > 0
    ensures (x - x % m) % m == 0
    ensures (x % m - x) % m == 0
  {
    var q := x / m;
    assert x == q * m + x % m;
    DivModUnique(x - x % m, m, q, 0);
    DivModUnique(x % m - x, m, -q, 0);
  }

  lemma MulAtLeast(d: int, n: int)
    requires n > 0 && d >= 1
    ensures d * n >= n
  {
    assert d * n == (d - 1) * n + n;
  }

  /** Quotient and remainder are determined by any decomposition
      `x == q * n + r` with `0 <= r < n`. */
  lemma DivModUnique(x: int, n: int, q: int, r: int)
    requires n > 0 && 0 <= r < n && x == q * n + r
    ensures x % n == r && x / n == q
  {
    var d := q - x / n;
    assert x == (x / n) * n + x % n;
    assert d * n == x % n - r;
    if d >= 1 { MulAtLeast(d, n); }
    else if d <= -1 { MulAtLeast(-d, n); }
  }
}

=== FILE: legacy_backend.dfy ===
/** The older backend server (internal/backend_server): created without a
    listener, it binds one only in ListenAndServe, and answers each
    connection with "ACK: <LINE>\n", without a server number. */
module LegacyBackend {
  import opened Common
  import opened Text
  import opened LineProtocol
  import opened Net
  import Backend

  datatype LegacyServer = LegacyServer(serverNumber: int, listener: Option<Listener>)

  /** `NewBackendServer(num)`: records the number; no socket yet. */
  function NewBackendServer(num: int): (r: LegacyServer)
    ensures r.serverNumber == num && r.listener.None?
  {
    LegacyServer(num, None)
  }

  const LegacyPrefix: string := "ACK: "

  /** `handleConnection`: the shared line rule with the bare "ACK: " prefix. */
  function HandleConnection(b: LegacyServer, stream: string): (r: Option<string>)
    ensures r.None? <==> Newline !in stream
    ensures r.Some? ==> LegacyPrefix <= r.value
  {
    Ack(LegacyPrefix, stream)
  }

  /** What `ListenAndServe` did: the bind failed and it returned at once, or
      it served connections until the accept loop stopped. */
  datatype ListenOutcome = ListenFailed | Serving(replies: seq<Option<string>>, stop: Stop)

  datatype Listened = Listened(server: LegacyServer, outcome: ListenOutcome)

  /** `ListenAndServe`: `bind` is the result of `net.Listen` on the fixed
      port, `events` what successive `Accept` calls return. */
  function ListenAndServe(b: LegacyServer, bind: Option<nat>, events: seq<Accepted<string>>): (r: Listened)
    ensures r.server.serverNumber == b.serverNumber
    ensures bind.None? ==> r.outcome == ListenFailed && r.server.listener.None?
    ensures bind.Some? ==>
      && r.server.listener == Some(Listener(bind.value, true))
      && r.outcome.Serving?
      && r.outcome.stop == AcceptLoop(events).stop
      && |r.outcome.replies| == |AcceptLoop(events).handled|
      && forall k :: 0 <= k < |r.outcome.replies| ==>
           events[k].Conn? && r.outcome.replies[k] == HandleConnection(b, events[k].conn)
  {
    match bind
    case None => Listened(b.(listener := None), ListenFailed)
    case Some(addr) =>
      var served := AcceptLoop(events);
      Listened(b.(listener := Some(Listener(addr, true))),
               Serving(seq(|served.handled|, k requires 0 <= k < |served.handled| => HandleConnection(b, served.handled[k])),
                      served.stop))
  }

  datatype LegacyClosed = LegacyClosed(server: LegacyServer, err: Option<Error>)

  /** `Close`: nothing to do, and no error, while no listener exists. */
  function Close(b: LegacyServer, outcome: Option<Error>): (r: LegacyClosed)
    ensures b.listener.None? ==> r == LegacyClosed(b, None)
    ensures b.listener.Some? ==>
      && r.err == outcome
      && r.server.serverNumber == b.serverNumber
      && r.server.listener.Some? && !r.server.listener.value.open
      && r.server.listener.value.addr == b.listener.value.addr
  {
    match b.listener
    case None => LegacyClosed(b, None)
    case Some(l) =>
      var c := CloseListener(l, outcome);
      LegacyClosed(b.(listener := Some(c.listener)), c.err)
  }

  /** Closing a freshly created server, before it ever listened, succeeds. */
  lemma CloseBeforeListen(num: int, outcome: Option<Error>)
    ensures Close(NewBackendServer(num), outcome).err.None?
  {
  }

  /** A failed bind leaves nothing to close either. */
  lemma CloseAfterFailedListen(b: LegacyServer, events: seq<Accepted<string>>, outcome: Option<Error>)
    ensures Close(ListenAndServe(b, None, events).server, outcome).err.None?
  {
  }

  /** The two formats differ only by the server tag: the numbered reply is
      "Server <id> " followed by the legacy reply to the same stream. */
  lemma NumberedReplyExtendsLegacy(id: int, l: Option<Listener>, stream: string)
    ensures Backend.HandleConnection(Backend.BackendServer(id, l), stream)
         == match HandleConnection(NewBackendServer(id), stream)
            case None => None
            case Some(v) => Some(Backend.ServerTag + FormatInt(id) + " " + v)
  {
    if Newline in stream {
      var p := Normalize(ReadLine(stream).value);
      Backend.ReplyOfLine(Backend.BackendServer(id, l), stream);
      NumberedPrefixSplit(id, p);
    }
  }

  /** " ACK: " is a blank followed by the legacy prefix. */
  lemma NumberedPrefixSplit(id: int, p: string)
    ensures Backend.ReplyPrefix(id) + p + [Newline]
         == Backend.ServerTag + FormatInt(id) + " " + (LegacyPrefix + p + [Newline])
  {
    assert Backend.AckTag == " " + LegacyPrefix;
  }

  lemma LegacyHelloText()
    ensures LegacyPrefix + "HELLO" + [Newline] == "ACK: HELLO\n"
  {
  }

  /** "Hello\n" is answered with "ACK: HELLO\n". */
  lemma HelloExample(b: LegacyServer, hello: string)
    requires hello == "Hello\n"
    ensures HandleConnection(b, hello) == Some("ACK: HELLO\n")
  {
    Backend.HelloNormalized(hello);
    LegacyHelloText();
  }
}

=== FILE: line_protocol.dfy ===
/** The framing and reply rule shared by both backend variants: read one
    line with `bufio.Reader.ReadString('\n')`, answer with a fixed prefix,
    the upper-cased trimmed line and a newline, or answer nothing at all
    when the stream ends before a newline. */
module LineProtocol {
  import opened Common
  import opened Text

  const Newline: char := '\n'

  /** A complete line: ends in its one and only newline. */
  predicate IsLine(l: string) {
    |l| > 0 && l[|l| - 1] == Newline && Newline !in l[..|l| - 1]
  }

  /** `ReadString('\n')`: everything up to and including the first newline;
      no line at all when the stream ends first (the read then fails). */
  function ReadLine(s: string): (r: Option<string>)
    ensures r.None? <==> Newline !in s
    ensures r.Some? ==> IsLine(r.value) && r.value <= s
    decreases |s|
  {
    if |s| == 0 then None
    else if s[0] == Newline then Some([Newline])
    else match ReadLine(s[1..])
      case None => None
      case Some(l) =>
        assert s == [s[0]] + s[1..];
        assert ([s[0]] + l)[..|l|] == [s[0]] + l[..|l| - 1];
        Some([s[0]] + l)
  }

  /** A line is what ReadLine returns exactly when it is a prefix of the
      stream: the framing rule stated without reference to how it scans. */
  lemma {:induction false} ReadLineIsUniqueLinePrefix(s: string, l: string)
    requires IsLine(l) && l <= s
    ensures ReadLine(s) == Some(l)
    decreases |s|
  {
    if s[0] != Newline {
      assert l[0] != Newline by { assert l[..|l| - 1][0] == l[0]; }
      assert IsLine(l[1..]) by { assert l[1..][..|l| - 2] == l[..|l| - 1][1..]; }
      ReadLineIsUniqueLinePrefix(s[1..], l[1..]);
      assert l == [s[0]] + l[1..];
    } else {
      assert l == [Newline] by { assert l[0] == s[0]; }
    }
  }

  /** Bytes after the first newline never influence the line read. */
  lemma ReadLineIgnoresTrailing(s: string, t: string)
    requires Newline in s
    ensures ReadLine(s + t) == ReadLine(s)
  {
    var l := ReadLine(s).value;
    ReadLineIsUniqueLinePrefix(s + t, l);
  }

  /** The stream formed by a sequence of writes. */
  function Concat(chunks: seq<string>): (s: string)
    ensures |chunks| == 0 ==> s == []
    decreases |chunks|
  {
    if |chunks| == 0 then [] else Concat(chunks[..|chunks| - 1]) + chunks[|chunks| - 1]
  }

  lemma ConcatStep(chunks: seq<string>, k: nat)
    requires k < |chunks|
    ensures Concat(chunks[..k + 1]) == Concat(chunks[..k]) + chunks[k]
  {
    assert chunks[..k + 1][..k] == chunks[..k];
  }

  lemma {:induction false} ConcatSplit(chunks: seq<string>, i: nat)
    requires i <= |chunks|
    ensures Concat(chunks) == Concat(chunks[..i]) + Concat(chunks[i..])
    decreases |chunks|
  {
    if i < |chunks| {
      var n := |chunks| - 1;
      assert chunks[..n][..i] == chunks[..i];
      ConcatSplit(chunks[..n], i);
      assert chunks[i..][..|chunks[i..]| - 1] == chunks[..n][i..];
      assert chunks[..n] == chunks[..|chunks| - 1];
    } else {
      assert chunks[..i] == chunks;
    }
  }

  /** The reader fed one network read at a time: it appends each chunk to
      its buffer and stops as soon as the buffer holds a newline. However
      the client fragments its writes, the line read is the same. */
  method ReadLineChunked(chunks: seq<string>) returns (line: Option<string>)
    ensures line == ReadLine(Concat(chunks))
  {
    var buffer: string := [];
    var i := 0;
    while i < |chunks| && Newline !in buffer
      invariant 0 <= i <= |chunks|
      invariant buffer == Concat(chunks[..i])
    {
      assert chunks[..i + 1][..i] == chunks[..i];
      buffer := buffer + chunks[i];
      i := i + 1;
    }
    ConcatSplit(chunks, i);
    if Newline in buffer {
      ReadLineIgnoresTrailing(buffer, Concat(chunks[i..]));
    } else {
      assert chunks[..i] == chunks;
    }
    line := ReadLine(buffer);
  }

  /** The reply to one connection: `prefix`, the normalised first line and a
      newline; nothing when no newline arrives. */
  function Ack(prefix: string, stream: string): (r: Option<string>)
    ensures r.None? <==> Newline !in stream
    ensures r.Some? ==> prefix <= r.value && |r.value| > 0 && r.value[|r.value| - 1] == Newline
  {
    match ReadLine(stream)
    case None => None
    case Some(line) => Some(prefix + Normalize(line) + [Newline])
  }

  /** The payload carried after the prefix, without the final newline. */
  function Payload(prefix: string, reply: string): string
    requires prefix <= reply && |prefix| < |reply|
  {
    reply[|prefix|..|reply| - 1]
  }

  /** A complete line never holds a newline once trimmed: its only newline
      is its last character, which trimming removes. */
  lemma NoNewlineAfterTrim(l: string)
    requires IsLine(l)
    ensures Newline !in TrimSpace(l)
  {
    var t := TrimSpace(l);
    var i, j :| SpaceMargins(l, i, j) && t == l[i..j];
  }

  /** With a newline-free prefix the reply carries exactly one newline, as
      its last character. */
  lemma AckSingleNewline(prefix: string, stream: string)
    requires Newline !in prefix
    requires Newline in stream
    ensures var r := Ack(prefix, stream).value;
      |r| > 0 && r[|r| - 1] == Newline && Newline !in r[..|r| - 1]
  {
    var line := ReadLine(stream).value;
    NoNewlineAfterTrim(line);
    var p := Normalize(line);
    UpperKeepsSpaces(TrimSpace(line));
    assert Newline !in p by {
      forall k | 0 <= k < |p| ensures p[k] != Newline {
        assert TrimSpace(line)[k] != Newline;
      }
    }
    var r := Ack(prefix, stream).value;
    assert r[..|r| - 1] == prefix + p;
  }

  /** The payload is the normalised line: free of edge spaces and unchanged
      by normalising again. */
  lemma AckPayloadCanonical(prefix: string, stream: string)
    requires Newline in stream
    ensures var r := Ack(prefix, stream).value;
      |prefix| < |r|
      && Payload(prefix, r) == Normalize(ReadLine(stream).value)
      && NoEdgeSpace(Payload(prefix, r))
      && Normalize(Payload(prefix, r)) == Payload(prefix, r)
  {
    var r := Ack(prefix, stream).value;
    var p := Normalize(ReadLine(stream).value);
    assert r == prefix + p + [Newline];
    assert r[|prefix|..|r| - 1] == p;
    NormalizeIdempotent(ReadLine(stream).value);
  }

  /** Anything the client sends after the first newline is ignored. */
  lemma AckIgnoresTrailing(prefix: string, s: string, t: string)
    requires Newline in s
    ensures Ack(prefix, s + t) == Ack(prefix, s)
  {
    ReadLineIgnoresTrailing(s, t);
  }
}

=== FILE: net.dfy ===
/** The parts of `net` the servers touch, reduced to values: a listener with
    an address and an open flag, the outcomes of successive `Accept` calls,
    and the accept loop that all three servers run. */
module Net {
  import opened Common

  /** A bound listening socket; `addr` stands for its OS-assigned address. */
  datatype Listener = Listener(addr: nat, open: bool)

  /** What one `Accept` call returns: a connection, or an error that either
      wraps `net.ErrClosed` (`closed`) or is some other failure. */
  datatype Accepted<C> = Conn(conn: C) | AcceptError(closed: bool)

  /** Why an accept loop returned: the listener was closed (the normal stop),
      another accept error, or it is still running when the outcomes run out. */
  datatype Stop = Graceful | Failed | Running

  datatype Served<C> = Served(handled: seq<C>, stop: Stop)

  /** The accept loop: hand every accepted connection to a handler, and
      return on the first accept error, quietly when the listener was closed. */
  function AcceptLoop<C>(events: seq<Accepted<C>>): (r: Served<C>)
    ensures |r.handled| <= |events|
    ensures forall k :: 0 <= k < |r.handled| ==> events[k] == Conn(r.handled[k])
    ensures r.stop == Running <==> |r.handled| == |events|
    ensures r.stop != Running ==>
      events[|r.handled|].AcceptError? && (r.stop == Graceful <==> events[|r.handled|].closed)
    decreases |events|
  {
    if |events| == 0 then Served([], Running)
    else match events[0]
      case AcceptError(closed) => Served([], if closed then Graceful else Failed)
      case Conn(c) =>
        var rest := AcceptLoop(events[1..]);
        Served([c] + rest.handled, rest.stop)
  }

  /** Outcomes after the first accept error are never looked at. */
  lemma {:induction false} AcceptLoopStopsAtFirstError<C>(
    before: seq<Accepted<C>>, err: Accepted<C>, after: seq<Accepted<C>>)
    requires forall k :: 0 <= k < |before| ==> before[k].Conn?
    requires err.AcceptError?
    ensures AcceptLoop(before + [err] + after) == AcceptLoop(before + [err])
    decreases |before|
  {
    if |before| > 0 {
      assert (before + [err] + after)[1..] == before[1..] + [err] + after;
      assert (before + [err])[1..] == before[1..] + [err];
      AcceptLoopStopsAtFirstError(before[1..], err, after);
    } else {
      assert (before + [err] + after)[0] == err;
      assert (before + [err])[0] == err;
    }
  }

  /** Connections followed by an error: the loop handles exactly those
      connections and stops on the error. */
  lemma {:induction false} AcceptLoopConnsThenError<C>(before: seq<Accepted<C>>, err: Accepted<C>)
    requires forall k :: 0 <= k < |before| ==> before[k].Conn?
    requires err.AcceptError?
    ensures AcceptLoop(before + [err]).handled == seq(|before|, k requires 0 <= k < |before| => before[k].conn)
    ensures AcceptLoop(before + [err]).stop == (if err.closed then Graceful else Failed)
    decreases |before|
  {
    if |before| == 0 {
      assert before + [err] == [err];
    } else {
      assert (before + [err])[1..] == before[1..] + [err];
      AcceptLoopConnsThenError(before[1..], err);
      assert seq(|before|, k requires 0 <= k < |before| => before[k].conn)
          == [before[0].conn] + seq(|before| - 1, k requires 0 <= k < |before| - 1 => before[1..][k].conn);
    }
  }

  /** `listener.Close()`: the listener is closed afterwards and the call
      reports whatever the operating system reported. */
  datatype ClosedListener = ClosedListener(listener: Listener, err: Option<Error>)

  function CloseListener(l: Listener, outcome: Option<Error>): (r: ClosedListener)
    ensures !r.listener.open && r.listener.addr == l.addr
    ensures r.err == outcome
  {
    ClosedListener(l.(open := false), outcome)
  }
}

=== FILE: round_robin.dfy ===
/** The round-robin selection policy (internal/algorithm): a uint32 counter
    that every call bumps by one, the pick being the counter's value before
    the call modulo the pool size. */
module RoundRobinPolicy {
  import opened Common

  /** 2^32: uint32 arithmetic wraps modulo this. */
  const Modulus: int := 0x1_0000_0000

  type Uint32 = x: int | 0 <= x < Modulus

  function AddUint32(a: Uint32, b: Uint32): Uint32 {
    (a + b) % Modulus
  }

  function SubUint32(a: Uint32, b: Uint32): Uint32 {
    (a - b) % Modulus
  }

  /** The zero value `RoundRobin{}` has counter 0. */
  datatype RoundRobin = RoundRobin(counter: Uint32)

  datatype Pick = Pick(state: RoundRobin, index: int)

  /** `Next(numBackends)`: `atomic.AddUint32(&counter, 1) - 1`, converted
      to int and reduced with Go's `%`. Only a zero pool size makes Go panic
      (division by zero); a negative one still yields a value in [0, |n|). */
  function Next(rr: RoundRobin, numBackends: int): (r: Pick)
    requires numBackends != 0
    ensures 0 <= r.index < Abs(numBackends)
    ensures r.index == rr.counter % Abs(numBackends)
    ensures r.state.counter == (rr.counter + 1) % Modulus
  {
    var after := AddUint32(rr.counter, 1);
    var index := SubUint32(after, 1);
    IncrementThenDecrement(rr.counter);
    Pick(RoundRobin(after), GoRem(index, numBackends))
  }

  /** `AddUint32(&c, 1) - 1` gives back the value before the add, wrap or not. */
  lemma IncrementThenDecrement(c: Uint32)
    ensures SubUint32(AddUint32(c, 1), 1) == c
  {
    if c + 1 < Modulus {
      DivModUnique(c + 1, Modulus, 0, c + 1);
      DivModUnique(c, Modulus, 0, c);
    } else {
      DivModUnique(c + 1, Modulus, 1, 0);
      DivModUnique(-1, Modulus, -1, c);
    }
  }

  /** A fresh `RoundRobin{}` picks index 0 first. */
  lemma ZeroValueStartsAtZero(numBackends: int)
    requires numBackends != 0
    ensures Next(RoundRobin(0), numBackends).index == 0
    ensures Next(RoundRobin(0), numBackends).state.counter == 1
  {
  }

  /** The picks of `k` consecutive calls and the state they leave. */
  datatype Run = Run(state: RoundRobin, picks: seq<int>)

  /** The counter `m` steps after `c`. */
  function Wrap(c: Uint32, m: nat): Uint32 {
    (c + m) % Modulus
  }

  lemma ShiftWrapped(c: Uint32, m: nat)
    ensures Wrap(Wrap(c, 1), m) == Wrap(c, m + 1)
  {
    var q := m / Modulus;
    assert m == q * Modulus + m % Modulus;
    if c + 1 < Modulus {
      DivModUnique(c + 1, Modulus, 0, c + 1);
    } else {
      DivModUnique(c + 1, Modulus, 1, 0);
      DivModUnique(c + 1 + m, Modulus, q + 1, m % Modulus);
    }
  }

  /** `picks` are the picks of successive calls from counter `c` over a
      pool of `n`: the m-th sees the counter advanced by m, wrapped at 2^32. */
  predicate RotatesFrom(picks: seq<int>, c: Uint32, n: int)
    requires n > 0
  {
    forall m :: 0 <= m < |picks| ==> picks[m] == Wrap(c, m) % n
  }

  /** The pick at counter `c`, followed by the picks from the next counter. */
  lemma RotatesFromCons(c: Uint32, n: int, rest: seq<int>)
    requires n > 0 && RotatesFrom(rest, Wrap(c, 1), n)
    ensures RotatesFrom([c % n] + rest, c, n)
  {
    var picks := [c % n] + rest;
    forall m | 0 <= m < |picks| ensures picks[m] == Wrap(c, m) % n {
      if m == 0 {
        DivModUnique(c, Modulus, 0, c);
        assert picks[0] == c % n;
      } else {
        ShiftWrapped(c, m - 1);
        assert picks[m] == rest[m - 1];
      }
    }
  }

  /** `k` calls in a row: the m-th sees the counter advanced by m, wrapped
      at 2^32. */
  function Calls(rr: RoundRobin, numBackends: int, k: nat): (r: Run)
    requires numBackends != 0
    ensures |r.picks| == k
    ensures r.state.counter == Wrap(rr.counter, k)
    ensures RotatesFrom(r.picks, rr.counter, Abs(numBackends))
    decreases k
  {
    if k == 0 then Run(rr, [])
    else
      var p := Next(rr, numBackends);
      var rest := Calls(p.state, numBackends, k - 1);
      ShiftWrapped(rr.counter, k - 1);
      RotatesFromCons(rr.counter, Abs(numBackends), rest.picks);
      Run(rest.state, [p.index] + rest.picks)
  }

  lemma ModStep(x: nat, n: int)
    requires n > 0
    ensures (x + 1) % n == if x % n + 1 < n then x % n + 1 else 0
  {
    var q := x / n;
    assert x == q * n + x % n;
    if x % n + 1 < n {
      DivModUnique(x + 1, n, q, x % n + 1);
    } else {
      assert x + 1 == (q + 1) * n + 0;
      DivModUnique(x + 1, n, q + 1, 0);
    }
  }

  /** Successive counter values walk through the residues one step at a time. */
  lemma {:induction false} ConsecutiveMods(c: nat, n: int, m: nat)
    requires n > 0 && m < n
    ensures (c + m) % n == if c % n + m < n then c % n + m else c % n + m - n
    decreases m
  {
    if m > 0 {
      ConsecutiveMods(c, n, m - 1);
      ModStep(c + m - 1, n);
    }
  }

  /** Where the m-th of `n` rotating picks lands, for a start residue `s`. */
  function Rotate(s: int, m: int, n: int): int {
    if s + m < n then s + m else s + m - n
  }

  lemma PickFormula(c: Uint32, n: int, m: nat)
    requires n > 0 && c + n <= Modulus && m < n
    ensures Calls(RoundRobin(c), n, n).picks[m] == (c + m) % n == Rotate(c % n, m, n)
  {
    DivModUnique(c + m, Modulus, 0, c + m);
    assert Wrap(c, m) == c + m;
    ConsecutiveMods(c, n, m);
  }

  /** Within one lap, each pick is one more than the previous, mod n. */
  lemma CycleStep(c: Uint32, n: int, m: nat)
    requires n > 0 && c + n <= Modulus && m < n - 1
    ensures var r := Calls(RoundRobin(c), n, n).picks;
      r[m + 1] == (r[m] + 1) % n
  {
    var r := Calls(RoundRobin(c), n, n).picks;
    PickFormula(c, n, m);
    PickFormula(c, n, m + 1);
    ModStep(c + m, n);
    assert c + m + 1 == c + (m + 1);
    if r[m] + 1 < n {
      DivModUnique(r[m] + 1, n, 0, r[m] + 1);
    } else {
      DivModUnique(r[m] + 1, n, 1, 0);
    }
  }

  /** Every index of the pool is picked during one lap. */
  lemma CycleCovers(c: Uint32, n: int, j: int)
    requires n > 0 && c + n <= Modulus && 0 <= j < n
    ensures j in Calls(RoundRobin(c), n, n).picks
  {
    var s := c % n;
    var m := if j >= s then j - s else j - s + n;
    PickFormula(c, n, m);
  }

  /** No index is picked twice during one lap. */
  lemma CycleDistinct(c: Uint32, n: int, a: int, b: int)
    requires n > 0 && c + n <= Modulus && 0 <= a < b < n
    ensures Calls(RoundRobin(c), n, n).picks[a] != Calls(RoundRobin(c), n, n).picks[b]
  {
    PickFormula(c, n, a);
    PickFormula(c, n, b);
  }

  /** `n` calls that do not cross the 2^32 wrap return c mod n, (c+1) mod n,
      ... in rotation, and so hit every index of the pool exactly once. */
  lemma CycleVisitsEveryIndexOnce(c: Uint32, n: int)
    requires n > 0 && c + n <= Modulus
    ensures var r := Calls(RoundRobin(c), n, n).picks;
      && |r| == n
      && (forall m :: 0 <= m < n ==> r[m] == (c + m) % n)
      && (forall m :: 0 <= m < n - 1 ==> r[m + 1] == (r[m] + 1) % n)
      && (forall j :: 0 <= j < n ==> j in r)
      && (forall a, b :: 0 <= a < b < n ==> r[a] != r[b])
  {
    var r := Calls(RoundRobin(c), n, n).picks;
    forall m | 0 <= m < n ensures r[m] == (c + m) % n {
      PickFormula(c, n, m);
    }
    forall m | 0 <= m < n - 1 ensures r[m + 1] == (r[m] + 1) % n {
      CycleStep(c, n, m);
    }
    forall j | 0 <= j < n ensures j in r {
      CycleCovers(c, n, j);
    }
    forall a, b | 0 <= a < b < n ensures r[a] != r[b] {
      CycleDistinct(c, n, a, b);
    }
  }
}

=== FILE: text.dfy ===
/** Text primitives the acknowledgement protocol relies on: Go's
    `unicode.IsSpace`, `strings.TrimSpace`, an ASCII `strings.ToUpper`, and
    the `%d` decimal rendering of an integer together with its parser. */
module Text {
  import opened Common

  /** `unicode.IsSpace`: the six ASCII spaces, NEL, NBSP and the Unicode
      White_Space characters outside Latin-1. */
  predicate IsSpace(c: char) {
    || c == '\t' || c == '\n' || c == '\U{000B}' || c == '\U{000C}' || c == '\r' || c == ' '
    || c == '\U{0085}' || c == '\U{00A0}' || c == '\U{1680}'
    || ('\U{2000}' <= c <= '\U{200A}')
    || c == '\U{2028}' || c == '\U{2029}' || c == '\U{202F}' || c == '\U{205F}' || c == '\U{3000}'
  }

  predicate AllSpace(s: string) {
    forall k :: 0 <= k < |s| ==> IsSpace(s[k])
  }

  /** Neither the first nor the last character is a space. */
  predicate NoEdgeSpace(s: string) {
    |s| == 0 || (!IsSpace(s[0]) && !IsSpace(s[|s| - 1]))
  }

  /** `s[i..j]` is cut out of `s` by removing only spaces on either side. */
  predicate SpaceMargins(s: string, i: int, j: int) {
    0 <= i <= j <= |s| && AllSpace(s[..i]) && AllSpace(s[j..])
  }

  /** Number of leading spaces. */
  function Lead(s: string): (k: nat)
    ensures k <= |s|
    ensures forall m :: 0 <= m < k ==> IsSpace(s[m])
    ensures k < |s| ==> !IsSpace(s[k])
    decreases |s|
  {
    if |s| == 0 || !IsSpace(s[0]) then 0 else 1 + Lead(s[1..])
  }

  /** Number of trailing spaces. */
  function Trail(s: string): (k: nat)
    ensures k <= |s|
    ensures forall m :: |s| - k <= m < |s| ==> IsSpace(s[m])
    ensures k < |s| ==> !IsSpace(s[|s| - 1 - k])
    decreases |s|
  {
    if |s| == 0 || !IsSpace(s[|s| - 1]) then 0 else 1 + Trail(s[..|s| - 1])
  }

  /** `strings.TrimSpace`: drop leading and trailing spaces. */
  function TrimSpace(s: string): (r: string)
    ensures NoEdgeSpace(r)
    ensures exists i, j :: SpaceMargins(s, i, j) && r == s[i..j]
    ensures r == [] <==> AllSpace(s)
  {
    var i := Lead(s);
    if i == |s| then
      assert SpaceMargins(s, |s|, |s|);
      []
    else
      var t := Trail(s);
      assert t <= |s| - 1 - i;
      assert SpaceMargins(s, i, |s| - t);
      assert !AllSpace(s) by { assert !IsSpace(s[i]); }
      s[i..|s| - t]
  }

  /** TrimSpace is the only cut of `s` with space margins and no space at
      either end: an independent description of the same result. */
  lemma TrimSpaceIsCanonical(s: string, i: int, j: int)
    requires SpaceMargins(s, i, j)
    requires NoEdgeSpace(s[i..j])
    ensures TrimSpace(s) == s[i..j]
  {
    var l := Lead(s);
    if i == j {
      assert AllSpace(s) by {
        forall k | 0 <= k < |s| ensures IsSpace(s[k]) {
          if k < i { assert s[..i][k] == s[k]; } else { assert s[j..][k - j] == s[k]; }
        }
      }
    } else {
      assert !IsSpace(s[i]) by { assert s[i..j][0] == s[i]; }
      assert !IsSpace(s[j - 1]) by { assert s[i..j][j - i - 1] == s[j - 1]; }
      assert l == i;
      var t := Trail(s);
      assert t == |s| - j;
    }
  }

  /** ASCII `unicode.ToUpper`: lower-case Latin letters move up by 32. */
  function UpperChar(c: char): (u: char)
    ensures ('a' <= c <= 'z') ==> 'A' <= u <= 'Z'
    ensures !('a' <= c <= 'z') ==> u == c
  {
    if 'a' <= c <= 'z' then (c as int - 32) as char else c
  }

  function Upper(s: string): (r: string)
    ensures |r| == |s|
    ensures forall k :: 0 <= k < |s| ==> r[k] == UpperChar(s[k])
  {
    seq(|s|, k requires 0 <= k < |s| => UpperChar(s[k]))
  }

  /** `strings.ToUpper(strings.TrimSpace(s))`, the acknowledgement payload. */
  function Normalize(s: string): (r: string)
    ensures NoEdgeSpace(r)
    ensures exists i, j :: SpaceMargins(s, i, j) && r == Upper(s[i..j])
    ensures r == [] <==> AllSpace(s)
  {
    var t := TrimSpace(s);
    UpperKeepsSpaces(t);
    Upper(t)
  }

  /** Upper-casing neither creates nor removes a space. */
  lemma UpperKeepsSpaces(s: string)
    ensures forall k :: 0 <= k < |s| ==> (IsSpace(Upper(s)[k]) <==> IsSpace(s[k]))
  {
  }

  lemma UpperIdempotent(s: string)
    ensures Upper(Upper(s)) == Upper(s)
  {
  }

  /** A string already free of edge spaces is left alone by TrimSpace. */
  lemma TrimSpaceFixesTrimmed(s: string)
    requires NoEdgeSpace(s)
    ensures TrimSpace(s) == s
  {
    assert s[..0] == [] && s[|s|..] == [];
    assert s[0..|s|] == s;
    TrimSpaceIsCanonical(s, 0, |s|);
  }

  /** The payload has no edge spaces and normalising it again changes nothing. */
  lemma NormalizeIdempotent(s: string)
    ensures NoEdgeSpace(Normalize(s))
    ensures Normalize(Normalize(s)) == Normalize(s)
  {
    var t := TrimSpace(s);
    UpperKeepsSpaces(t);
    TrimSpaceFixesTrimmed(Upper(t));
    UpperIdempotent(t);
  }

  // ---- decimal rendering, as `fmt`'s `%d` prints an int ----

  predicate IsDigit(c: char) {
    '0' <= c <= '9'
  }

  function DigitChar(d: int): (c: char)
    requires 0 <= d < 10
    ensures IsDigit(c)
  {
    ('0' as int + d) as char
  }

  function DigitValue(c: char): (d: int)
    requires IsDigit(c)
    ensures 0 <= d < 10
    ensures DigitChar(d) == c
  {
    c as int - '0' as int
  }

  /** `%d` of a natural number: its decimal digits, with no leading zero. */
  function FormatNat(n: nat): (r: string)
    ensures |r| > 0
    ensures forall k :: 0 <= k < |r| ==> IsDigit(r[k])
    ensures r[0] == '0' <==> n == 0
    ensures |r| > 1 ==> r[0] != '0'
    decreases n
  {
    if n < 10 then [DigitChar(n)] else FormatNat(n / 10) + [DigitChar(n % 10)]
  }

  /** `%d` of an int: a minus sign for negatives, then the digits. */
  function FormatInt(i: int): (r: string)
    ensures |r| > 0
    ensures forall k :: 0 <= k < |r| ==> IsDigit(r[k]) || (k == 0 && r[k] == '-')
    ensures r[0] == '-' <==> i < 0
    ensures i >= 0 && |r| > 1 ==> r[0] != '0'
    ensures i < 0 ==> |r| > 1 && r[1] != '0'
  {
    if i < 0 then "-" + FormatNat(-i) else FormatNat(i)
  }

  function ParseNat(s: string): (r: Option<nat>)
    ensures r.Some? ==> |s| > 0
    decreases |s|
  {
    if |s| == 0 || !IsDigit(s[|s| - 1]) then None
    else if |s| == 1 then Some(DigitValue(s[0]))
    else match ParseNat(s[..|s| - 1])
      case None => None
      case Some(v) => Some(v * 10 + DigitValue(s[|s| - 1]))
  }

  function ParseInt(s: string): (r: Option<int>)
    ensures r.Some? ==> |s| > 0
  {
    if |s| > 0 && s[0] == '-' then
      match ParseNat(s[1..])
      case None => None
      case Some(v) => Some(0 - v)
    else
      match ParseNat(s)
      case None => None
      case Some(v) => Some(v)
  }

  lemma {:induction false} ParseFormatNat(n: nat)
    ensures ParseNat(FormatNat(n)) == Some(n)
    decreases n
  {
    if n >= 10 {
      var s := FormatNat(n);
      assert s[..|s| - 1] == FormatNat(n / 10);
      ParseFormatNat(n / 10);
    }
  }

  /** Decimal rendering is undone by parsing: the number in a reply can be
      read back exactly. */
  lemma ParseFormatInt(i: int)
    ensures ParseInt(FormatInt(i)) == Some(i)
  {
    if i < 0 {
      assert FormatInt(i)[1..] == FormatNat(-i);
      ParseFormatNat(-i);
    } else {
      ParseFormatNat(i);
    }
  }
}
